=== FILE: README.md ===
# Prediction market ledger in Dafny

This project models the ink! prediction-market contract of the Prediction-Market
repository (`contracts/src/prediction_market/lib.rs`), together with the frontend's
address shortener (`frontend/src/utils/index.ts`).

The contract keeps:
- **events**, each with a **market** that holds a pool and is resolved once by its owner;
- **outcomes**, each with a fixed total supply, part of it still available;
- **investment funds**, each with a trader, a balance and a total share, split among owners;
- **bet tickets** `(outcome, fund) -> supply`;
- **trade offers** for fund shares.

In the model:
- The storage is one immutable `State` record of maps, lists and id counters (`types.dfy`).
- Every message is a pure function from the storage, the call environment
  `Env(caller, value, now)` and the arguments to `Result<Step<T>>`.
- `Ok` carries the new storage and the output.
- `Err(e)` is one of the contract's error codes.
- `Trap` is an ink! panic (an `unwrap` of nothing, an unsigned underflow, a division by zero) or the
  rejection of value sent to a message not declared `payable`.
- Neither `Err` nor `Trap` carries a state: a failed call is reverted, and `Contract.Call` keeps the old storage.

Modules:
- `Types`: entities, error codes and constants. The constants are `MinEventDeposit` and `MinFundDeposit`
  (10^12 each) and `MinFundShare` (100).
- `Store`: the lookup helpers and facts about ticket sums.
- `Control`: the 51 % trader-control rule and the share move shared by `transfer_share` and
  `accept_proposal`.
- `Settlement`: the payout loop of `resolve_event`.
- `EventMarket`: `create_event` and `resolve_event`.
- `FundLedger`: `create_fund`, `transfer_share`, `bet`, `create_proposal` and `accept_proposal`.
- `Invariant`: a storage invariant `Valid` that every message keeps, and the supply/ticket balance.
- `History`: fresh event and trade ids, and what no message takes back.
- `Contract`: message dispatch, revert-on-failure and runs of calls from deployment.
- `Address`: `shorttenAddress`.

The model follows the code as written. Where the code's behaviour differs from what the error
names suggest, lemmas exhibit the code's behaviour:
- `create_fund` never reports `NotDivisibleBy100`: its second check is `total_share < 100`, not a
  divisibility test. A share count of 150 is accepted (`FundLedger.AnyShareCountFrom100`).
- `bet` accepts bets only from the resolve date on, and only while the market is unresolved.
- A repeat bet of the same fund on the same outcome overwrites the ticket instead of adding to it.
  The fund is listed once more, so sold supply and tickets drift apart (`Invariant.RepeatBetBalancedIff`).
- A transfer of shares to oneself adds the amount to the sender's share
  (`FundLedger.SelfTransferInflates`). Shares are therefore not conserved in that case.
- Two lookups panic rather than report a `*NotFound` error: `bet` on an unknown outcome, and
  `get_outcome_funds` on a listed fund that does not exist (`Invariant.Valid` rules this out in reachable storage).
- Underflows panic rather than report an error (`Trap`).
- In `resolve_event`, a fund listed twice on the winning outcome is paid twice from the pool.
  Both credited copies start from the same snapshot, so its balance rises by one prize only
  (`Settlement.DoubleListingCreditsOnce`).

## Model

| member | source | states |
|---|---|---|
| Store.GetOutcomeById | contracts/src/prediction_market/lib.rs:610-617 | succeeds exactly when both the outcome and its market entry exist and returns them; otherwise `WrongEventOutCome` |
| Store.SupplyTotal | contracts/src/prediction_market/lib.rs:598-606 | the summing loop succeeds exactly when every listed outcome exists; a missing one gives `WrongEventOutCome`; an empty list sums to 0 and every listed outcome's total supply is at most the sum |
| Store.SupplyTotalAppend | contracts/src/prediction_market/lib.rs:598-606 | one more listed outcome adds exactly its total supply to the sum, so with the empty-list case the total is the sum of the listed supplies |
| Store.GetEventById | contracts/src/prediction_market/lib.rs:592-608 | `EventNotFound` exactly when the event or its market is missing; otherwise succeeds exactly when all listed outcomes exist, else `WrongEventOutCome`; returns the stored records and the sum of the listed outcomes' total supplies |
| Store.GetFundById | contracts/src/prediction_market/lib.rs:619-625 | returns the stored fund exactly when it exists, else `FundNotFound` |
| Store.GetTradeById | contracts/src/prediction_market/lib.rs:627-633 | returns the stored offer exactly when it exists, else `TradeNotFound` |
| Store.GetOutcomeFunds | contracts/src/prediction_market/lib.rs:635-649 | succeeds exactly when every fund listed on the outcome exists (otherwise a panic); the i-th holding is the i-th listed fund with its ticket, missing tickets read as 0, repeats kept |
| Store.HeldSupplyIsTicketSum | contracts/src/prediction_market/lib.rs:635-649 | the supplies of the holdings add up to the ticket sum over the outcome's fund list |
| Store.TicketSumAppend | contracts/src/prediction_market/lib.rs:385-396 | listing a fund once more adds its ticket to the outcome's ticket sum |
| Store.TicketSumOverwrite | contracts/src/prediction_market/lib.rs:394-395 | rewriting a fund's ticket changes the sum by the difference once per listing of that fund |
| Store.CountPositive | contracts/src/prediction_market/lib.rs:385-388 | a fund has a positive listing count exactly when it is listed |
| Store.TicketSumOtherOutcome | contracts/src/prediction_market/lib.rs:394-395 | writing a ticket of one outcome leaves the ticket sums of all other outcomes unchanged |
| Control.PercentReaches | contracts/src/prediction_market/lib.rs:334-336 | the floored percentage `x*100/total` reaches 51 exactly when `100*x >= 51*total` |
| Control.HandOver | contracts/src/prediction_market/lib.rs:332-341 | a hand-over by a non-trader never touches the fund; by the trader, the taker becomes trader exactly when the amount is at least 51 % of the total share; `TraderNotIdentitied` exactly when neither the amount nor either party's resulting share reaches 51 %; a panic exactly when the total share is 0; only the trader field can change |
| Control.MoveShares | contracts/src/prediction_market/lib.rs:343-346 | the giver loses and the taker gains the amount, and their sum is conserved, when they differ; a self-move adds the amount; every other share entry is unchanged |
| FundLedger.ShareHandOver | contracts/src/prediction_market/lib.rs:333-347 | applies the control rule and moves the shares: `TraderNotIdentitied` exactly when a trader's hand-over leaves nobody at 51 %; a panic exactly when a trader hands over shares of a fund with total share 0; on success only the share and fund maps change, as the rule and the move say |
| Settlement.Credit | contracts/src/prediction_market/lib.rs:228-231 | the credited fund's balance rises by the prize and nothing else in the record changes |
| Settlement.PayFunds | contracts/src/prediction_market/lib.rs:217-234 | the loop succeeds exactly when every ticket is positive and the summed prize fits the pool; when the summed prize fits the pool, a zero ticket gives `SomethingWrong`; with every ticket positive and the summed prize above the pool, the loop panics; the remaining pool plus the paid prizes equals the old pool; the i-th record is the i-th snapshot credited with its ticket times the prize per unit |
| Settlement.Commit | contracts/src/prediction_market/lib.rs:240-242 | writes each record under its own id: no key is lost, all paid ids are present, no key is added when they were known, unlisted funds keep their records, and when same-id records agree each id holds its record |
| Settlement.DoubleListingCreditsOnce | contracts/src/prediction_market/lib.rs:219-242 | a fund listed twice is debited twice from the pool but ends with its balance raised by one prize |
| EventMarket.AddOutcomes | contracts/src/prediction_market/lib.rs:718-729 | the loop files payload i under id `first + i` and leaves all other entries unchanged; the key set grows by exactly that id range |
| EventMarket.NewOutcomes | contracts/src/prediction_market/lib.rs:675-686 | each new outcome record is exactly its event, its own id counting up from the first free id, and its payload's description, price and supply; older records are untouched and the key set grows by exactly the new ids |
| EventMarket.NewMarketOutcomes | contracts/src/prediction_market/lib.rs:688-700 | each new market outcome carries its event and its own id and starts with its whole total supply available; older entries are untouched and the key set grows by exactly the new ids |
| EventMarket.FileOutcomes | contracts/src/prediction_market/lib.rs:675-700 | each new outcome and market entry is exactly its event and its own id with its payload's description, price and supply, and all of the supply available; older outcomes are untouched |
| EventMarket.CreateEvent | contracts/src/prediction_market/lib.rs:170-194 | `DepositTooLow` exactly when the deposit is below the minimum; `AtLeastTwoOutcome` exactly when it is enough but fewer than two outcomes are given; it succeeds in every other case, so it is `Ok` exactly when the deposit is enough and at least two outcomes are given; no panic; on success the next event id is used and bumped, the outcome counter grows by the number of outcomes, and the event, its unresolved market with the deposit as pool, its consecutive outcome list and the new outcome records built from the payloads (description, price, supply) are stored; nothing else changes |
| EventMarket.ResolveEvent | contracts/src/prediction_market/lib.rs:196-245 | each error exactly when the checks before it pass and its own fails, in the code's order: `EventNotFound`, `WrongEventOutCome` for an unknown listed outcome or winner, `NotOwner`, `ResolveDateNotMatch`, `WrongEventOutCome` for a winner of another event, then a panic on an underflowing used supply and `NoBodyBetted`; success exactly when all pass, the used supply is positive, the listed funds exist with positive tickets and the prizes fit the pool; then the market is marked resolved with the winner, pool after plus prizes equals pool before, and the listed funds are paid |
| EventMarket.SettleWinner | contracts/src/prediction_market/lib.rs:212-242 | after the checks: a panic when available supply exceeds total supply, `NoBodyBetted` exactly when nothing is sold, success exactly when something is sold, the listed funds exist with positive tickets and the prizes fit the pool |
| EventMarket.Settle | contracts/src/prediction_market/lib.rs:217-242 | succeeds exactly when the listed funds exist with positive tickets and the summed prize fits the pool; otherwise `SomethingWrong` or a panic; with funds filed under their own ids, each listed fund is credited once and every other fund and table is unchanged |
| EventMarket.HoldingsMatchTickets | contracts/src/prediction_market/lib.rs:635-649 | the holdings read for the winning outcome add up to its ticket sum, and are all positive exactly when its listed tickets are |
| EventMarket.WriteBack | contracts/src/prediction_market/lib.rs:236-242 | the writes after the payout loop mark the market resolved with its winner and the remaining pool, and credit each listed fund once |
| EventMarket.SettledFunds | contracts/src/prediction_market/lib.rs:222-242 | with funds filed under their own ids, the write-back credits each listed fund once from its snapshot and keeps the fund key set |
| EventMarket.ResolveTwiceFails | contracts/src/prediction_market/lib.rs:205-207 | right after a successful resolution, the next resolution of the same event fails (`Contract.ResolvedMarketStaysClosed` covers every later call); for the owner naming an existing outcome it fails with `ResolveDateNotMatch` |
| EventMarket.ResolveLeavesRemainder | contracts/src/prediction_market/lib.rs:196-245 | when the tickets on the winning outcome add up to its used supply, a resolution passing the owner, date and outcome checks succeeds and the pool keeps exactly `pool % used_supply`, less than the used supply |
| EventMarket.ResolveSucceeds | contracts/src/prediction_market/lib.rs:196-245 | the converse of the success conditions: the owner resolving an unresolved market of the winner's event from its resolve date, with sold supply, listed funds present with positive tickets and prizes that fit in the pool, succeeds |
| FundLedger.CreateFund | contracts/src/prediction_market/lib.rs:282-310 | `AtLeast100Share` exactly when the total share is below 100; `DepositTooLow` exactly when it is not and the deposit is below the minimum; never `NotDivisibleBy100`; on success the caller is trader and holds the whole share of a new fund at the next fund id, whose balance is the deposit |
| FundLedger.TransferShare | contracts/src/prediction_market/lib.rs:312-349 | `FundNotFound` exactly when the fund is missing; `NotEnoughShare` exactly when the amount exceeds the sender's share; `TraderNotIdentitied` exactly under the below-51 % condition for a trader sender; a panic exactly when the trader sends from a fund with total share 0; on success returns the recipient's new share, moves the shares, changes only the trader by the control rule, and touches no other table |
| FundLedger.Bet | contracts/src/prediction_market/lib.rs:351-402 | each outcome exactly when the checks before it pass and its own fails: `FundNotFound`, `NotOwner`, a panic on an unknown outcome, `EventNotFound`, `WrongEventOutCome`, `ResolveDateNotMatch`, `OutOfSupply`, `MoreThanOneSupply`, `DepositTooLow`, `NotEnoughBalance`; success exactly when the trader bets on an unresolved market whose resolve date has come with `0 < supplies <= available` and `supplies * price <= value <= fund balance`; then available supply drops by the supplies, the value moves from the fund to the pool with their sum conserved, the ticket becomes the supplies, both index lists grow by one entry, and nothing else changes |
| FundLedger.BetOnMarket | contracts/src/prediction_market/lib.rs:366-401 | with fund, caller and outcome checked: `EventNotFound`, `WrongEventOutCome`, `ResolveDateNotMatch`, `OutOfSupply` and `MoreThanOneSupply` each exactly in its case, never a panic, and the payment checks once the market is open and the supplies are in range |
| FundLedger.BetPayment | contracts/src/prediction_market/lib.rs:377-401 | `DepositTooLow` exactly when the value is below `supplies * price`; `NotEnoughBalance` exactly when it is not but exceeds the fund's balance; otherwise the bet is placed |
| FundLedger.PlaceBet | contracts/src/prediction_market/lib.rs:383-399 | the writes of an accepted bet: available supply drops by the supplies, the value moves from the fund to the pool, the ticket is set, both index lists grow by one entry, and nothing else changes |
| FundLedger.CreateProposal | contracts/src/prediction_market/lib.rs:404-441 | `FundNotFound` exactly when the fund is missing; `NotEnoughShare` exactly when the caller's share is below the amount; it succeeds in every other case, so it is `Ok` exactly when the fund exists and the caller holds enough share; on success an open offer at the next trade id closes at `now + duration` (the default duration when none is given), and it is appended to the fund's and the proponent's lists |
| FundLedger.CompleteTrade | contracts/src/prediction_market/lib.rs:472-502 | `FundNotFound` exactly when the offer's fund is missing; `TraderNotIdentitied` exactly under the below-51 % condition; a panic exactly when the proponent is the trader of a fund with total share 0; on success the offer is closed and its share handed from the proponent to the taker under the control rule |
| FundLedger.AcceptProposal | contracts/src/prediction_market/lib.rs:443-503 | each outcome exactly when the checks before it pass and its own fails: `TradeNotFound`, `TradeNotAvailable`, `TimeExpired`, `NotOwner`, `DepositTooLow`, `NotEnoughShare`, `FundNotFound`, `TraderNotIdentitied`, a panic on a fund with total share 0; success exactly when the offer is open, addressed to the caller or to anyone, paid in full, covered by the proponent's share, and the hand-over is neither refused nor panics; then the offer is closed and the shares moved |
| FundLedger.AnyShareCountFrom100 | contracts/src/prediction_market/lib.rs:291-301 | with enough deposit, every total share from 100 up is accepted, including 150 |
| FundLedger.MajorityBoundary | contracts/src/prediction_market/lib.rs:333-340 | a sole trader transferring 51 of 100 shares hands over control; transferring 50 is refused with `TraderNotIdentitied` |
| FundLedger.SelfTransferInflates | contracts/src/prediction_market/lib.rs:312-347 | a sole owner's self-transfer of any positive amount is never refused and leaves them holding the total share plus the amount, more than the fund's total share |
| FundLedger.AcceptOnce | contracts/src/prediction_market/lib.rs:450-452 | right after an offer is accepted, the next acceptance of it fails with `TradeNotAvailable` (`Contract.CompletedOfferStaysClosed` covers every later call) |
| FundLedger.OfferExpires | contracts/src/prediction_market/lib.rs:425 | an offer made at `now` with duration `d` is refused with `TimeExpired` after `now + d` |
| Invariant.CreateEventKeepsValid | contracts/src/prediction_market/lib.rs:170-194 | `create_event` keeps the storage invariant |
| Invariant.NewEventValid | contracts/src/prediction_market/lib.rs:709-729 | the new outcomes, market entries, event and outcome list that `create_event` files keep the storage invariant |
| Invariant.ResolveEventKeepsValid | contracts/src/prediction_market/lib.rs:196-245 | `resolve_event` keeps the storage invariant |
| Invariant.ResolvedValid | contracts/src/prediction_market/lib.rs:236-242 | marking the market resolved and crediting the listed funds keeps the storage invariant |
| Invariant.CreateFundKeepsValid | contracts/src/prediction_market/lib.rs:282-310 | `create_fund` keeps the storage invariant |
| Invariant.TransferShareKeepsValid | contracts/src/prediction_market/lib.rs:312-349 | `transfer_share` keeps the storage invariant |
| Invariant.BetKeepsValid | contracts/src/prediction_market/lib.rs:351-402 | `bet` keeps the storage invariant: the fund it lists exists and holds a positive ticket |
| Invariant.PlacedBetValid | contracts/src/prediction_market/lib.rs:383-399 | the writes of a bet keep the storage invariant |
| Invariant.CreateProposalKeepsValid | contracts/src/prediction_market/lib.rs:404-441 | `create_proposal` keeps the storage invariant |
| Invariant.AcceptProposalKeepsValid | contracts/src/prediction_market/lib.rs:443-503 | `accept_proposal` keeps the storage invariant |
| Invariant.NewOutcomesBalanced | contracts/src/prediction_market/lib.rs:718-729 | the outcomes of a new event start with nothing sold and no fund listed |
| Invariant.BetTickets | contracts/src/prediction_market/lib.rs:394-395 | a bet sets the ticket of the betting fund to the supplies and leaves every other ticket |
| Invariant.BetKeepsBalance | contracts/src/prediction_market/lib.rs:383-396 | a successful bet keeps sold supply equal to the ticket sum on every outcome, unless it is a repeat bet on the outcome it bets on |
| Invariant.CreateEventKeepsBalance | contracts/src/prediction_market/lib.rs:170-194 | in valid storage, `create_event` keeps every existing outcome's sold supply equal to its ticket sum |
| Invariant.ResolveEventKeepsBalance | contracts/src/prediction_market/lib.rs:196-245 | `resolve_event` keeps every outcome's sold supply equal to its ticket sum |
| Invariant.CreateFundKeepsBalance | contracts/src/prediction_market/lib.rs:282-310 | `create_fund` keeps every outcome balanced |
| Invariant.TransferShareKeepsBalance | contracts/src/prediction_market/lib.rs:312-349 | `transfer_share` keeps every outcome balanced |
| Invariant.CreateProposalKeepsBalance | contracts/src/prediction_market/lib.rs:404-441 | `create_proposal` keeps every outcome balanced |
| History.CreateEventKeeps | contracts/src/prediction_market/lib.rs:170-194 | `create_event` files its event and outcomes under fresh ids, so filed events, resolved markets, completed offers and filed outcomes are untouched |
| History.ResolveEventKeeps | contracts/src/prediction_market/lib.rs:196-245 | `resolve_event` writes only an unresolved market and keeps ids fresh |
| History.CreateFundKeeps | contracts/src/prediction_market/lib.rs:282-310 | `create_fund` touches no market, offer or outcome |
| History.TransferShareKeeps | contracts/src/prediction_market/lib.rs:312-349 | `transfer_share` touches no market, offer or outcome |
| History.BetKeeps | contracts/src/prediction_market/lib.rs:351-402 | `bet` writes only the market of an open event and no outcome record |
| History.CreateProposalKeeps | contracts/src/prediction_market/lib.rs:404-441 | `create_proposal` files its offer under a fresh id and keeps ids fresh |
| History.AcceptProposalKeeps | contracts/src/prediction_market/lib.rs:443-503 | `accept_proposal` writes only an offer that was still open |
| Invariant.AcceptProposalKeepsBalance | contracts/src/prediction_market/lib.rs:443-503 | `accept_proposal` keeps every outcome balanced |
| Invariant.PlacedBetBalance | contracts/src/prediction_market/lib.rs:383-399 | the writes of a bet keep an outcome balanced unless the bet repeats a listing on that outcome |
| Invariant.RepeatBetBalancedIff | contracts/src/prediction_market/lib.rs:383-396 | after a repeat bet, sold supply equals the ticket sum exactly when the new supplies equal the old ticket |
| Invariant.ResolvedEventTakesNoBets | contracts/src/prediction_market/lib.rs:368-370 | right after an event is resolved, no bet on any of its outcomes succeeds (`Contract.ResolvedMarketStaysClosed` covers every later call); when the fund, the trader and the outcome check out, the bet fails with `ResolveDateNotMatch` |
| Invariant.BalancedResolveSucceeds | contracts/src/prediction_market/lib.rs:196-245 | in valid storage, resolving a balanced winner that passes the owner, date and outcome checks and has sold supply succeeds and leaves `pool % used_supply` in the pool |
| Contract.Dispatch | contracts/src/prediction_market/lib.rs:36-100 | a message not declared `payable` (`resolve_event`, `transfer_share`, `create_proposal`) that comes with value is rejected; no message moves an id counter backwards |
| Contract.DispatchKeepsHistory | contracts/src/prediction_market/lib.rs:36-100 | in valid storage with fresh ids, no message changes a filed event, a resolved market, a completed offer or a filed outcome, and ids stay fresh |
| Contract.RunKeepsHistory | contracts/src/prediction_market/lib.rs:36-100 | through any run of calls from such storage, a filed event, a resolved market, a completed offer and a filed outcome stay exactly as they were |
| Contract.CompletedOfferStaysClosed | contracts/src/prediction_market/lib.rs:450-452 | a completed offer is refused with `TradeNotAvailable` after any run of calls |
| Contract.ResolvedMarketStaysClosed | contracts/src/prediction_market/lib.rs:205-207 | after any run of calls a resolved market and its event are unchanged; the market is never resolved again (its owner, once the event, market and winning outcome are found, gets `ResolveDateNotMatch`) and takes no bet on its outcomes |
| Contract.DispatchKeepsValid | contracts/src/prediction_market/lib.rs:36-100 | every message keeps the storage invariant |
| Contract.Call | contracts/src/prediction_market/lib.rs:36-100 | a call that fails or panics leaves the storage as it was; counters never decrease |
| Contract.DispatchKeepsBalanced | contracts/src/prediction_market/lib.rs:36-100 | in valid storage, every message except a repeat bet on an outcome keeps that outcome's sold supply equal to its ticket sum |
| Contract.RunKeepsBalanced | contracts/src/prediction_market/lib.rs:36-100 | a balanced outcome in valid storage stays balanced through any run of calls with no repeat bet on it |
| Contract.RunKeepsValid | contracts/src/prediction_market/lib.rs:36-100 | any sequence of calls from valid storage ends in valid storage |
| Contract.ReachableValid | contracts/src/prediction_market/lib.rs:163-166 | every storage reachable from the freshly deployed contract is valid and has fresh event, market and trade ids |
| Address.SliceFrom | frontend/src/utils/index.ts:50 | JavaScript `slice(start)`: a suffix of the input, of length `len - start` for a non-negative start, `-start` for a negative one, clamped to the input |
| Address.ShortenAddress | frontend/src/utils/index.ts:44-52 | an input of length at most `prefix + suffix` is returned unchanged; otherwise the result starts with the first `prefix` characters and `"..."`; for a positive suffix it has length `prefix + suffix + 3` and ends with the input's last `suffix` characters; for suffix 0 the whole input follows `"..."` |
| Address.ShortenIdempotent | frontend/src/utils/index.ts:44-52 | with a positive suffix, shortening an already shortened address changes nothing |
| Address.ZeroSuffixGrows | frontend/src/utils/index.ts:50 | with suffix 0, shortening again makes the result longer |

`Invariant.Valid` says:
- every fund is filed under its own id;
- events and markets exist together, and so do outcomes and their market entries;
- outcome ids are below the next outcome id;
- no outcome has more available supply than total supply;
- funds are listed only on known outcomes, and a listed fund exists and holds a positive ticket there;
- every outcome an event lists exists.

## Left out

- Read-only messages are left out because they change nothing. These are `get_events`,
  `get_event_detail`, `get_funds`, `get_owner_share`, `get_proposals` and `get_fund_proposals`,
  `get_fund_outcomes` is left out too; only those messages call it. `get_event_outcomes`
  (lib.rs:664) is called by no message at all.
  `get_proposals` also looks a fund up by a trade id.
- Integer widths are left out: all numbers are unbounded. Only the subtractions the code reaches are modelled.
  - Overflow of `+=` on balances, pools and counters is not modelled.
  - The `as i64` casts in `bet` and the control rule are read as exact arithmetic.
  - The unsigned subtractions that can underflow are modelled as panics. These are the used supply and the pool in the payout loop. The `share - amount` subtractions
    come after the `NotEnoughShare` checks and cannot underflow.
- Metadata, question and description strings are opaque values; the contract never inspects them.
- The ink! environment is not modelled; caller, transferred value and block timestamp are the `Env` parameter.
  The same goes for SCALE encoding, event topics and the chain extension.
- Transferred value handling: the value attached to `create_event`, `create_fund`, `bet` and `accept_proposal` is only
  counted where the code stores it. In `accept_proposal` it is stored nowhere. Value sent with the
  other messages is rejected by `Contract.Dispatch`; the handlers themselves ignore it.
- `DefaultDuration` is an uninterpreted constant. The constant `DEFAULT_DURATION` is not defined in the
  contract sources (types.rs does not declare it), so its value is not part of this model.
- `create_event` bumps the event id before checking the number of outcomes. The failed call is reverted,
  so that bump is not visible and is not modelled.
- Share conservation is stated for the two parties of a move, not as a sum over all owners of a fund.
  Maps in the model have no summation.
- EventMarket.ResolveEvent: the effect on fund records is stated only when every fund is filed under its
  own id (`FundKeysMatch`). That holds in every reachable storage (`Contract.ReachableValid`).
- The frontend pages and components, the float and date helpers of `frontend/src/utils/index.ts`
  (`toDecimal`, `fromDecimal`, `parsePrice`, `stringToNumber`, `milisecondsToDate`, `dateToMilliseconds`)
  are left out. They rely on floating point, `parseFloat` and the JavaScript `Date` time zone.
- Address.ShortenAddress takes lengths as natural numbers. Negative or fractional lengths and a
  `null`/`undefined` input are not modelled.
- Address.SliceFrom: lengths and indices count code points, while JavaScript's `length` and `slice`
  count UTF-16 code units. The two agree on addresses, which are ASCII; for other input they differ
  ("a😀b" has length 4 in JavaScript and 3 here, and a JavaScript slice can split a surrogate pair).
- Address.ShortenAddress: for the same reason, its lengths are code points, not UTF-16 code units; on
  input outside the Basic Multilingual Plane the JavaScript result can differ in length and content.

=== FILE: address.dfy ===
/** The frontend's `shorttenAddress`: an account address cut down to a
    prefix, `"..."` and a suffix for display. */
module Address {

  /** JavaScript's `s.slice(start)` for an integer `start`: a negative
      start counts from the end, and either kind is clamped to the string.
      `-0` is the number zero, so `s.slice(-0)` is all of `s`. */
  function SliceFrom(s: string, start: int): (r: string)
    ensures start >= 0 ==> |r| == if start <= |s| then |s| - start else 0
    ensures start < 0 ==> |r| == if -start <= |s| then -start else |s|
    ensures r == s[|s| - |r|..]
  {
    if start >= 0 then (if start <= |s| then s[start..] else [])
    else if -start <= |s| then s[|s| + start..]
    else s
  }

  /** `shorttenAddress(input, prefixLength, suffixLength)`. */
  function ShortenAddress(input: string, prefixLength: nat, suffixLength: nat): (r: string)
    ensures |input| <= prefixLength + suffixLength ==> r == input
    ensures |input| > prefixLength + suffixLength ==>
      && |r| >= prefixLength + 3
      && r[..prefixLength] == input[..prefixLength]
      && r[prefixLength..prefixLength + 3] == "..."
    ensures |input| > prefixLength + suffixLength && suffixLength > 0 ==>
      && |r| == prefixLength + suffixLength + 3
      && r[prefixLength + 3..] == input[|input| - suffixLength..]
    ensures |input| > prefixLength + suffixLength && suffixLength == 0 ==>
      r[prefixLength + 3..] == input
  {
    if |input| <= prefixLength + suffixLength then input
    else
      var prefix := input[..prefixLength];
      var suffix := SliceFrom(input, 0 - suffixLength as int);
      prefix + "..." + suffix
  }

  /** With a non-empty suffix, shortening is idempotent: a shortened
      address is long enough to be cut again, and cutting it again yields
      the same prefix and suffix. */
  lemma ShortenIdempotent(input: string, prefixLength: nat, suffixLength: nat)
    requires suffixLength > 0
    ensures var once := ShortenAddress(input, prefixLength, suffixLength);
      ShortenAddress(once, prefixLength, suffixLength) == once
  {
    var once := ShortenAddress(input, prefixLength, suffixLength);
    if |input| > prefixLength + suffixLength {
      var twice := ShortenAddress(once, prefixLength, suffixLength);
      assert |twice| == |once|;
      forall i | 0 <= i < |once|
        ensures twice[i] == once[i]
      {
        if i < prefixLength {
          assert twice[i] == twice[..prefixLength][i];
          assert once[i] == once[..prefixLength][i];
        } else if i < prefixLength + 3 {
          assert twice[i] == twice[prefixLength..prefixLength + 3][i - prefixLength];
          assert once[i] == once[prefixLength..prefixLength + 3][i - prefixLength];
        } else {
          assert twice[i] == twice[prefixLength + 3..][i - prefixLength - 3];
          assert twice[prefixLength + 3..] == once[|once| - suffixLength..];
        }
      }
    }
  }

  /** With a zero suffix the whole input is appended after `"..."`, so a
      shortened address grows every time it is shortened again. */
  lemma ZeroSuffixGrows(input: string, prefixLength: nat)
    requires |input| > prefixLength
    ensures var once := ShortenAddress(input, prefixLength, 0);
      && |once| == prefixLength + 3 + |input|
      && |ShortenAddress(once, prefixLength, 0)| > |once|
  {
  }
}

=== FILE: contract.dfy ===
/** The contract as a whole: its messages, how a call commits or reverts,
    and runs of calls from deployment. */
module Contract {
  import opened Types
  import opened Store
  import opened EventMarket
  import opened FundLedger
  import opened Invariant
  import opened History

  /** The state-changing messages of the contract. */
  datatype Message =
    | NewEvent(question: string, resolveDate: Timestamp, bets: seq<OutcomePayload>, metadata: EventMetadata)
    | Resolve(eventId: EventId, outcomeId: OutcomeId)
    | NewFund(totalShare: Share, fundMetadata: FundMetadata)
    | Transfer(fundId: FundId, recipient: AccountId, amount: Share)
    | PlaceBet(outcomeId: OutcomeId, fundId: FundId, supplies: Supply)
    | Propose(fundId: FundId, amount: Share, price: Balance, duration: Option<Timestamp>, proposedPerson: Option<AccountId>)
    | Accept(tradeId: TradeId)

  /** The messages declared `payable`: `create_event`, `create_fund`,
      `bet` and `accept_proposal`. */
  predicate Payable(msg: Message) {
    msg.NewEvent? || msg.NewFund? || msg.PlaceBet? || msg.Accept?
  }

  /** Dispatches a message to its handler; only the committed state is
      kept. A message not declared `payable` that comes with value is
      rejected before its handler runs, which reverts the call. No message
      takes back an id it has handed out. */
  function Dispatch(s: State, env: Env, msg: Message): (r: Result<State>)
    ensures !Payable(msg) && env.value > 0 ==> r.Trap?
    ensures r.Ok? ==> Payable(msg) || env.value == 0
    ensures r.Ok? ==> r.value.nextEventId >= s.nextEventId && r.value.nextOutcomeId >= s.nextOutcomeId
    ensures r.Ok? ==> r.value.nextFundId >= s.nextFundId && r.value.nextTradeId >= s.nextTradeId
  {
    if !Payable(msg) && env.value > 0 then Trap
    else
      match msg
      case NewEvent(q, d, bets, md) => var st :- CreateEvent(s, env, q, d, bets, md); Ok(st.state)
      case Resolve(e, o) => var st :- ResolveEvent(s, env, e, o); Ok(st.state)
      case NewFund(n, md) => var st :- CreateFund(s, env, n, md); Ok(st.state)
      case Transfer(f, to, n) => var st :- TransferShare(s, env, f, to, n); Ok(st.state)
      case PlaceBet(o, f, n) => var st :- Bet(s, env, o, f, n); Ok(st.state)
      case Propose(f, n, p, d, who) => var st :- CreateProposal(s, env, f, n, p, d, who); Ok(st.state)
      case Accept(t) => var st :- AcceptProposal(s, env, t); Ok(st.state)
  }

  /** Every message keeps `Valid`. */
  lemma DispatchKeepsValid(s: State, env: Env, msg: Message)
    requires Valid(s)
    ensures Dispatch(s, env, msg).Ok? ==> Valid(Dispatch(s, env, msg).value)
  {
    match msg
    case NewEvent(q, d, bets, md) => CreateEventKeepsValid(s, env, q, d, bets, md);
    case Resolve(e, o) => ResolveEventKeepsValid(s, env, e, o);
    case NewFund(n, md) => CreateFundKeepsValid(s, env, n, md);
    case Transfer(f, to, n) => TransferShareKeepsValid(s, env, f, to, n);
    case PlaceBet(o, f, n) => BetKeepsValid(s, env, o, f, n);
    case Propose(f, n, p, d, who) => CreateProposalKeepsValid(s, env, f, n, p, d, who);
    case Accept(t) => AcceptProposalKeepsValid(s, env, t);
  }

  /** A bet of a fund already listed on outcome `o`, on `o` again: the one
      message that can unbalance `o`. */
  predicate IsRepeatBet(s: State, msg: Message, o: OutcomeId) {
    msg.PlaceBet? && msg.outcomeId == o && msg.fundId in IndexOf(s.outcomeToFunds, o)
  }

  /** Every message except a repeat bet on `o` keeps `o` balanced: the
      supply it has sold stays equal to the tickets of its listed funds. */
  lemma DispatchKeepsBalanced(s: State, env: Env, msg: Message, o: OutcomeId)
    requires Valid(s) && SupplyBalanced(s, o) && !IsRepeatBet(s, msg, o)
    ensures Dispatch(s, env, msg).Ok? ==> SupplyBalanced(Dispatch(s, env, msg).value, o)
  {
    match msg
    case NewEvent(q, d, bets, md) => CreateEventKeepsBalance(s, env, q, d, bets, md, o);
    case Resolve(e, w) => ResolveEventKeepsBalance(s, env, e, w, o);
    case NewFund(n, md) => CreateFundKeepsBalance(s, env, n, md, o);
    case Transfer(f, to, n) => TransferShareKeepsBalance(s, env, f, to, n, o);
    case PlaceBet(w, f, n) => BetKeepsBalance(s, env, w, f, n, o);
    case Propose(f, n, p, d, who) => CreateProposalKeepsBalance(s, env, f, n, p, d, who, o);
    case Accept(t) => AcceptProposalKeepsBalance(s, env, t, o);
  }

  /** The storage after one call. A message that returns an error, or
      panics, is reverted: its writes are discarded. */
  function Call(s: State, env: Env, msg: Message): (s': State)
    ensures !Dispatch(s, env, msg).Ok? ==> s' == s
    ensures s'.nextEventId >= s.nextEventId && s'.nextOutcomeId >= s.nextOutcomeId
    ensures s'.nextFundId >= s.nextFundId && s'.nextTradeId >= s.nextTradeId
  {
    match Dispatch(s, env, msg)
    case Ok(st) => st
    case _ => s
  }

  /** The storage after a sequence of calls, first call first. */
  function Run(s: State, calls: seq<(Env, Message)>): State
    decreases |calls|
  {
    if |calls| == 0 then s else Run(Call(s, calls[0].0, calls[0].1), calls[1..])
  }

  /** Every storage reachable from deployment satisfies `Valid`, so the
      facts it carries (funds filed under their own ids, sold supply within
      total supply, listed funds present with positive tickets) hold
      before every call. */
  lemma {:induction false} RunKeepsValid(s: State, calls: seq<(Env, Message)>)
    requires Valid(s)
    ensures Valid(Run(s, calls))
    decreases |calls|
  {
    if |calls| > 0 {
      DispatchKeepsValid(s, calls[0].0, calls[0].1);
      RunKeepsValid(Call(s, calls[0].0, calls[0].1), calls[1..]);
    }
  }

  /** No call of the run is a repeat bet on `o`, judged at the storage
      the call meets. */
  ghost predicate NoRepeatBets(s: State, calls: seq<(Env, Message)>, o: OutcomeId)
    decreases |calls|
  {
    |calls| == 0 || (!IsRepeatBet(s, calls[0].1, o) && NoRepeatBets(Call(s, calls[0].0, calls[0].1), calls[1..], o))
  }

  /** An outcome balanced in valid storage stays balanced through any run
      without repeat bets on it. */
  lemma {:induction false} RunKeepsBalanced(s: State, calls: seq<(Env, Message)>, o: OutcomeId)
    requires Valid(s) && SupplyBalanced(s, o) && NoRepeatBets(s, calls, o)
    ensures SupplyBalanced(Run(s, calls), o)
    decreases |calls|
  {
    if |calls| > 0 {
      DispatchKeepsValid(s, calls[0].0, calls[0].1);
      DispatchKeepsBalanced(s, calls[0].0, calls[0].1, o);
      RunKeepsBalanced(Call(s, calls[0].0, calls[0].1), calls[1..], o);
    }
  }

  /** No message takes back a resolution, a completed trade or a filed
      outcome, and every message keeps ids fresh. */
  lemma DispatchKeepsHistory(s: State, env: Env, msg: Message, e: EventId, t: TradeId, o: OutcomeId)
    requires Valid(s) && IdsIssued(s)
    ensures var r := Dispatch(s, env, msg);
      r.Ok? ==> Keeps(s, r.value, e, t, o) && IdsIssued(r.value)
  {
    match msg
    case NewEvent(q, d, bets, md) => CreateEventKeeps(s, env, q, d, bets, md, e, t, o);
    case Resolve(e', w) => ResolveEventKeeps(s, env, e', w, e, t, o);
    case NewFund(n, md) => CreateFundKeeps(s, env, n, md, e, t, o);
    case Transfer(f, to, n) => TransferShareKeeps(s, env, f, to, n, e, t, o);
    case PlaceBet(w, f, n) => BetKeeps(s, env, w, f, n, e, t, o);
    case Propose(f, n, p, d, who) => CreateProposalKeeps(s, env, f, n, p, d, who, e, t, o);
    case Accept(t') => AcceptProposalKeeps(s, env, t', e, t, o);
  }

  /** Through any run from valid storage with fresh ids, a resolved market,
      a completed offer and a filed outcome stay exactly as they were. */
  lemma {:induction false} RunKeepsHistory(s: State, calls: seq<(Env, Message)>, e: EventId, t: TradeId, o: OutcomeId)
    requires Valid(s) && IdsIssued(s)
    ensures Keeps(s, Run(s, calls), e, t, o) && IdsIssued(Run(s, calls))
    decreases |calls|
  {
    if |calls| > 0 {
      var s1 := Call(s, calls[0].0, calls[0].1);
      DispatchKeepsValid(s, calls[0].0, calls[0].1);
      DispatchKeepsHistory(s, calls[0].0, calls[0].1, e, t, o);
      RunKeepsHistory(s1, calls[1..], e, t, o);
    }
  }

  lemma ReachableValid(calls: seq<(Env, Message)>)
    ensures Valid(Run(Initial(), calls))
    ensures IdsIssued(Run(Initial(), calls))
  {
    InitialValid();
    InitialIdsIssued();
    RunKeepsValid(Initial(), calls);
    RunKeepsHistory(Initial(), calls, 0, 0, 0);
  }

  /** A completed offer is never accepted again, whatever calls come in
      between. */
  lemma CompletedOfferStaysClosed(s: State, calls: seq<(Env, Message)>, t: TradeId, env: Env)
    requires Valid(s) && IdsIssued(s)
    requires t in s.trades && s.trades[t].isCompleted
    ensures AcceptProposal(Run(s, calls), env, t) == Err(TradeNotAvailable)
  {
    RunKeepsHistory(s, calls, 0, t, 0);
  }

  /** A resolved market stays resolved with the same winner and pool,
      whatever calls come in between: it is never resolved again (its
      owner, once the lookups pass, is told `ResolveDateNotMatch`) and takes
      no more bets on its outcomes. */
  lemma ResolvedMarketStaysClosed(s: State, calls: seq<(Env, Message)>, e: EventId, o: OutcomeId,
                                  env: Env, winner: OutcomeId, fundId: FundId, supplies: Supply)
    requires Valid(s) && IdsIssued(s)
    requires e in s.markets && s.markets[e].isResolved
    requires o in s.outcomes && s.outcomes[o].eventId == e
    ensures e in Run(s, calls).markets && Run(s, calls).markets[e] == s.markets[e]
    ensures !ResolveEvent(Run(s, calls), env, e, winner).Ok?
    ensures e in s.events ==> e in Run(s, calls).events && Run(s, calls).events[e] == s.events[e]
    ensures e in s.events && env.caller == s.events[e].owner && ResolveLookups(Run(s, calls), e, winner)
            ==> ResolveEvent(Run(s, calls), env, e, winner) == Err(ResolveDateNotMatch)
    ensures !Bet(Run(s, calls), env, o, fundId, supplies).Ok?
  {
    RunKeepsHistory(s, calls, e, 0, o);
  }
}

=== FILE: control.dfy ===
/** The 51 % trader-control rule shared by `transfer_share` and
    `accept_proposal`, and the share move both of them perform. */
module Control {
  import opened Types

  /** The controlling threshold, in percent of the fund's total share. */
  const ControlPercent: nat := 51

  /** The contract compares floored percentages; a floored percentage
      reaches the threshold exactly when the unfloored one does. */
  lemma PercentReaches(x: nat, total: nat)
    requires total > 0
    ensures x * 100 / total >= ControlPercent <==> 100 * x >= ControlPercent * total
  {
    FloorReaches(x * 100, total, ControlPercent);
  }

  /** `m / total >= k` exactly when `m >= k * total`. */
  lemma FloorReaches(m: nat, total: nat, k: nat)
    requires total > 0
    ensures m / total >= k <==> m >= k * total
  {
    var q := m / total;
    assert m == q * total + m % total;
    if q >= k {
      MulMonotone(k, q, total);
    } else {
      MulMonotone(q + 1, k, total);
      assert (q + 1) * total == q * total + total;
    }
  }

  lemma MulMonotone(a: nat, b: nat, c: nat)
    requires a <= b
    ensures a * c <= b * c
  {
    assert b * c == a * c + (b - a) * c;
  }

  /** The fund after `giver` hands `amount` of its `giverShare` to `taker`
      (who holds `takerShare`). Only a hand-over by the trader is judged:
      if the amount alone is at least 51 % of the total share the taker
      becomes trader; otherwise, if neither party ends at 51 % or more, the
      hand-over is refused with `TraderNotIdentitied`. A zero total share
      is a division by zero, i.e. a panic. */
  function HandOver(fund: InvestmentFund, giver: AccountId, taker: AccountId,
                    giverShare: Share, takerShare: Share, amount: Share): (r: Result<InvestmentFund>)
    requires amount <= giverShare
    ensures r.Ok? ==> r.value == fund.(trader := r.value.trader)
    ensures r.Ok? ==>
      r.value.trader == (if giver == fund.trader && 100 * amount >= ControlPercent * fund.totalShare then taker else fund.trader)
    ensures r == Err(TraderNotIdentitied) <==>
      && giver == fund.trader && fund.totalShare > 0
      && 100 * amount < ControlPercent * fund.totalShare
      && 100 * (giverShare - amount) < ControlPercent * fund.totalShare
      && 100 * (takerShare + amount) < ControlPercent * fund.totalShare
    ensures r.Trap? <==> giver == fund.trader && fund.totalShare == 0
    ensures r.Ok? || r.Trap? || r == Err(TraderNotIdentitied)
    ensures giver != fund.trader ==> r == Ok(fund)
  {
    if giver != fund.trader then Ok(fund)
    else if fund.totalShare == 0 then Trap
    else
      PercentReaches(amount, fund.totalShare);
      PercentReaches(giverShare - amount, fund.totalShare);
      PercentReaches(takerShare + amount, fund.totalShare);
      if amount * 100 / fund.totalShare >= ControlPercent then Ok(fund.(trader := taker))
      else if (giverShare - amount) * 100 / fund.totalShare < ControlPercent
           && (takerShare + amount) * 100 / fund.totalShare < ControlPercent
      then Err(TraderNotIdentitied)
      else Ok(fund)
  }

  /** `shares'` holds the balances of fund `f` after `amount` moved from
      `giver` to `taker`: when they differ the giver loses and the taker
      gains it, so their sum is kept; a self-move adds it; every other
      balance is untouched. */
  ghost predicate SharesMoved(s: State, shares': map<(FundId, AccountId), Share>,
                              f: FundId, giver: AccountId, taker: AccountId, amount: Share) {
    var s' := s.(shares := shares');
    && (giver != taker ==>
          && ShareOf(s', f, giver) == ShareOf(s, f, giver) - amount
          && ShareOf(s', f, taker) == ShareOf(s, f, taker) + amount
          && ShareOf(s', f, giver) + ShareOf(s', f, taker) == ShareOf(s, f, giver) + ShareOf(s, f, taker))
    && (giver == taker ==> ShareOf(s', f, giver) == ShareOf(s, f, giver) + amount)
    && (forall g: FundId, a: AccountId :: (g, a) != (f, giver) && (g, a) != (f, taker) ==> ShareOf(s', g, a) == ShareOf(s, g, a))
  }

  /** The share map after `amount` of fund `f` moves from `giver` to
      `taker`: the giver's entry is written first and the taker's second,
      both from balances read before the move. */
  function MoveShares(s: State, f: FundId, giver: AccountId, taker: AccountId, amount: Share): (r: map<(FundId, AccountId), Share>)
    requires amount <= ShareOf(s, f, giver)
    ensures r.Keys == s.shares.Keys + {(f, giver), (f, taker)}
    ensures SharesMoved(s, r, f, giver, taker, amount)
  {
    s.shares[(f, giver) := ShareOf(s, f, giver) - amount][(f, taker) := ShareOf(s, f, taker) + amount]
  }
}

=== FILE: event_market.dfy ===
/** Event creation and resolution (`create_event`, `resolve_event`). */
module EventMarket {
  import opened Types
  import opened Store
  import opened Settlement

  /** The outcome ids a batch of `n` outcomes receives, counting up from
      `first`. */
  function ConsecutiveIds(first: OutcomeId, n: nat): (ids: seq<OutcomeId>)
    ensures |ids| == n
    ensures forall i :: 0 <= i < n ==> ids[i] == first + i
  {
    seq(n, i => first + i)
  }

  /** The same ids, as a set. */
  function IdRange(first: OutcomeId, n: nat): (ids: set<OutcomeId>)
    ensures forall o :: o in ids <==> first <= o < first + n
    decreases n
  {
    if n == 0 then {} else {first} + IdRange(first + 1, n - 1)
  }

  /** One table after the loop of `new_event`: the entry `make` builds
      from each payload, in order, filed under the next outcome id counting
      up from `first`. The loop fills the outcome table and the market
      outcome table this way. */
  function AddOutcomes<V>(m: map<OutcomeId, V>, first: OutcomeId, bets: seq<OutcomePayload>,
                          make: (OutcomeId, OutcomePayload) -> V): (r: map<OutcomeId, V>)
    ensures r.Keys == m.Keys + IdRange(first, |bets|)
    ensures forall o :: first <= o < first + |bets| ==> r[o] == make(o, bets[o - first])
    ensures forall o :: o in m && !(first <= o < first + |bets|) ==> r[o] == m[o]
    decreases |bets|
  {
    if |bets| == 0 then m
    else
      var r := AddOutcomes(m[first := make(first, bets[0])], first + 1, bets[1..], make);
      assert IdRange(first, |bets|) == {first} + IdRange(first + 1, |bets| - 1);
      r
  }

  /** The outcome tables after `create_event` files `bets` for event `e`
      under the next outcome ids: each new outcome carries its payload and
      has its whole supply available; older outcomes are untouched. */
  ghost predicate OutcomesAdded(s: State, outcomes': map<OutcomeId, Outcome>, marketOutcomes': map<OutcomeId, MarketOutcome>,
                                e: EventId, bets: seq<OutcomePayload>) {
    && OutcomeRecordsAdded(s.outcomes, outcomes', s.nextOutcomeId, e, bets)
    && MarketRecordsAdded(s.marketOutcomes, marketOutcomes', s.nextOutcomeId, e, bets)
  }

  ghost predicate OutcomeRecordsAdded(outcomes: map<OutcomeId, Outcome>, outcomes': map<OutcomeId, Outcome>,
                                      first: OutcomeId, e: EventId, bets: seq<OutcomePayload>) {
    && outcomes'.Keys == outcomes.Keys + IdRange(first, |bets|)
    && (forall o :: first <= o < first + |bets| ==>
          outcomes'[o] == Outcome(e, o, bets[o - first].description, bets[o - first].depositPerSupply, bets[o - first].totalSupply))
    && (forall o :: o in outcomes && o !in IdRange(first, |bets|) ==> outcomes'[o] == outcomes[o])
  }

  ghost predicate MarketRecordsAdded(marketOutcomes: map<OutcomeId, MarketOutcome>, marketOutcomes': map<OutcomeId, MarketOutcome>,
                                     first: OutcomeId, e: EventId, bets: seq<OutcomePayload>) {
    && marketOutcomes'.Keys == marketOutcomes.Keys + IdRange(first, |bets|)
    && (forall o :: first <= o < first + |bets| ==>
          marketOutcomes'[o] == MarketOutcome(e, o, bets[o - first].totalSupply))
    && (forall o :: o in marketOutcomes && o !in IdRange(first, |bets|) ==> marketOutcomes'[o] == marketOutcomes[o])
  }

  /** The outcome table after the loop of `new_event`. */
  function NewOutcomes(outcomes: map<OutcomeId, Outcome>, first: OutcomeId, e: EventId, bets: seq<OutcomePayload>)
    : (r: map<OutcomeId, Outcome>)
    ensures OutcomeRecordsAdded(outcomes, r, first, e, bets)
  {
    AddOutcomes(outcomes, first, bets, (o, p: OutcomePayload) => Outcome(e, o, p.description, p.depositPerSupply, p.totalSupply))
  }

  /** The market outcome table after the loop of `new_event`. */
  function NewMarketOutcomes(marketOutcomes: map<OutcomeId, MarketOutcome>, first: OutcomeId, e: EventId,
                             bets: seq<OutcomePayload>): (r: map<OutcomeId, MarketOutcome>)
    ensures MarketRecordsAdded(marketOutcomes, r, first, e, bets)
  {
    AddOutcomes(marketOutcomes, first, bets, (o, p: OutcomePayload) => MarketOutcome(e, o, p.totalSupply))
  }

  /** Both outcome tables after the loop of `new_event`. */
  function FileOutcomes(s: State, e: EventId, bets: seq<OutcomePayload>): (r: State)
    ensures OutcomesAdded(s, r.outcomes, r.marketOutcomes, e, bets)
    ensures r.(outcomes := s.outcomes, marketOutcomes := s.marketOutcomes) == s
  {
    s.(outcomes := NewOutcomes(s.outcomes, s.nextOutcomeId, e, bets),
       marketOutcomes := NewMarketOutcomes(s.marketOutcomes, s.nextOutcomeId, e, bets))
  }

  /** `create_event`: the caller attaches the initial pool and becomes the
      event's owner. */
  function CreateEvent(s: State, env: Env, question: string, resolveDate: Timestamp,
                       bets: seq<OutcomePayload>, metadata: EventMetadata): (r: Result<Step<EventId>>)
    ensures env.value < MinEventDeposit <==> r == Err(DepositTooLow)
    ensures env.value >= MinEventDeposit && |bets| < 2 <==> r == Err(AtLeastTwoOutcome)
    ensures r.Ok? || r.Err?
    ensures r.Err? ==> r.error in {DepositTooLow, AtLeastTwoOutcome}
    ensures r.Ok? ==>
      var s' := r.value.state;
      var e := r.value.output;
      && e == s.nextEventId
      && s'.nextEventId == s.nextEventId + 1
      && s'.nextOutcomeId == s.nextOutcomeId + |bets|
      && s'.events == s.events[e := Event(e, env.caller, question, metadata)]
      && s'.markets == s.markets[e := EventMarket(e, env.value, false, resolveDate, None)]
      && s'.eventToOutcomes == s.eventToOutcomes[e := ConsecutiveIds(s.nextOutcomeId, |bets|)]
      && OutcomesAdded(s, s'.outcomes, s'.marketOutcomes, e, bets)
      && s'.(events := s.events, markets := s.markets, eventToOutcomes := s.eventToOutcomes,
             outcomes := s.outcomes, marketOutcomes := s.marketOutcomes,
             nextEventId := s.nextEventId, nextOutcomeId := s.nextOutcomeId) == s
  {
    if env.value < MinEventDeposit then Err(DepositTooLow)
    else if |bets| < 2 then Err(AtLeastTwoOutcome)
    else
      var e := s.nextEventId;
      var first := s.nextOutcomeId;
      var s1 := FileOutcomes(s, e, bets);
      Ok(Step(s1.(
        nextEventId := e + 1,
        nextOutcomeId := first + |bets|,
        eventToOutcomes := s.eventToOutcomes[e := ConsecutiveIds(first, |bets|)],
        events := s.events[e := Event(e, env.caller, question, metadata)],
        markets := s.markets[e := EventMarket(e, env.value, false, resolveDate, None)]), e))
  }

  /** Supply of outcome `o` that bets have taken. */
  function UsedSupply(s: State, o: OutcomeId): int
    requires o in s.outcomes && o in s.marketOutcomes
  {
    s.outcomes[o].totalSupply - s.marketOutcomes[o].availableSupply
  }

  /** The prize per ticket unit when `used` units share `pool`: the floor
      of the quotient, so the payout never exceeds the pool. */
  function PrizePerSupply(pool: Balance, used: int): Balance
    requires used > 0
  {
    pool / used
  }

  /** The lookups of `resolve_event` succeed: the event, its market, the
      outcomes it lists and the winner all exist. */
  predicate ResolveLookups(s: State, eventId: EventId, winner: OutcomeId) {
    && eventId in s.events && eventId in s.markets && EventOutcomesKnown(s, eventId)
    && winner in s.outcomes && winner in s.marketOutcomes
  }

  /** The lookups succeed and the owner, date and outcome checks pass. */
  predicate ResolveChecks(s: State, env: Env, eventId: EventId, winner: OutcomeId) {
    && ResolveLookups(s, eventId, winner)
    && env.caller == s.events[eventId].owner
    && s.markets[eventId].resolveDate <= env.now && !s.markets[eventId].isResolved
    && s.outcomes[winner].eventId == eventId
  }

  /** `resolve_event`: the owner names the winning outcome once the resolve
      date has come, and the pool is shared among the funds listed on it,
      `pool / used_supply` per ticket unit; the floor-division dust stays in
      the pool. Each error is reported exactly when the checks before it
      pass and its own fails. */
  function ResolveEvent(s: State, env: Env, eventId: EventId, winner: OutcomeId): (r: Result<Step<()>>)
    ensures eventId !in s.events || eventId !in s.markets <==> r == Err(EventNotFound)
    ensures r == Err(WrongEventOutCome) <==>
      && eventId in s.events && eventId in s.markets
      && (|| !EventOutcomesKnown(s, eventId) || winner !in s.outcomes || winner !in s.marketOutcomes
          || (&& env.caller == s.events[eventId].owner
              && s.markets[eventId].resolveDate <= env.now && !s.markets[eventId].isResolved
              && s.outcomes[winner].eventId != eventId))
    ensures r == Err(NotOwner) <==> ResolveLookups(s, eventId, winner) && env.caller != s.events[eventId].owner
    ensures r == Err(ResolveDateNotMatch) <==>
      && ResolveLookups(s, eventId, winner) && env.caller == s.events[eventId].owner
      && (env.now < s.markets[eventId].resolveDate || s.markets[eventId].isResolved)
    ensures ResolveChecks(s, env, eventId, winner) && s.marketOutcomes[winner].availableSupply > s.outcomes[winner].totalSupply
            ==> r.Trap?
    ensures r == Err(NoBodyBetted) <==> ResolveChecks(s, env, eventId, winner) && UsedSupply(s, winner) == 0
    ensures r == Err(SomethingWrong) || r.Trap? ==> ResolveChecks(s, env, eventId, winner)
    ensures r.Ok? <==>
      && ResolveChecks(s, env, eventId, winner) && UsedSupply(s, winner) > 0
      && (forall f :: f in IndexOf(s.outcomeToFunds, winner) ==> f in s.funds && TicketOf(s.tickets, winner, f) > 0)
      && TicketSum(s.tickets, winner, IndexOf(s.outcomeToFunds, winner)) * PrizePerSupply(s.markets[eventId].pool, UsedSupply(s, winner))
         <= s.markets[eventId].pool
    ensures r.Ok? ==> Resolved(s, r.value.state, eventId, winner, PrizePerSupply(s.markets[eventId].pool, UsedSupply(s, winner)))
  {
    var view :- GetEventById(s, eventId);
    var won :- GetOutcomeById(s, winner);
    if env.caller != view.event.owner then Err(NotOwner)
    else if env.now < view.market.resolveDate || view.market.isResolved then Err(ResolveDateNotMatch)
    else if won.outcome.eventId != eventId then Err(WrongEventOutCome)
    else SettleWinner(s, eventId, winner)
  }

  /** The rest of `resolve_event` once the checks pass: the used supply is
      computed (a panic if more is available than exists), nothing is paid
      when nobody bet, and otherwise the pool is settled. */
  function SettleWinner(s: State, eventId: EventId, winner: OutcomeId): (r: Result<Step<()>>)
    requires eventId in s.markets && winner in s.outcomes && winner in s.marketOutcomes
    ensures s.marketOutcomes[winner].availableSupply > s.outcomes[winner].totalSupply ==> r.Trap?
    ensures r == Err(NoBodyBetted) <==> UsedSupply(s, winner) == 0
    ensures r.Err? ==> r.error in {NoBodyBetted, SomethingWrong}
    ensures r.Ok? <==>
      && UsedSupply(s, winner) > 0
      && (forall f :: f in IndexOf(s.outcomeToFunds, winner) ==> f in s.funds && TicketOf(s.tickets, winner, f) > 0)
      && TicketSum(s.tickets, winner, IndexOf(s.outcomeToFunds, winner)) * PrizePerSupply(s.markets[eventId].pool, UsedSupply(s, winner))
         <= s.markets[eventId].pool
    ensures r.Ok? ==> Resolved(s, r.value.state, eventId, winner, PrizePerSupply(s.markets[eventId].pool, UsedSupply(s, winner)))
  {
    if s.marketOutcomes[winner].availableSupply > s.outcomes[winner].totalSupply then Trap
    else
      var used := UsedSupply(s, winner);
      if used == 0 then Err(NoBodyBetted)
      else Settle(s, eventId, winner, used)
  }

  /** The storage `s'` after market `eventId` is resolved with `winner`
      at `prizePerSupply` per ticket unit: the market is marked resolved
      with its winner, its pool pays out exactly the prizes of the listed
      tickets, the listed funds are credited (stated for funds filed under
      their own ids), and nothing else changes. */
  ghost predicate Resolved(s: State, s': State, eventId: EventId, winner: OutcomeId, prizePerSupply: Balance)
    requires eventId in s.markets
  {
    var m := s.markets[eventId];
    && s'.(markets := s.markets, funds := s.funds) == s
    && UpdatedOnlyAt(s.markets, s'.markets, eventId)
    && s'.markets[eventId] == m.(pool := s'.markets[eventId].pool, isResolved := true, winningOutcome := Some(winner))
    && s'.markets[eventId].pool + TicketSum(s.tickets, winner, IndexOf(s.outcomeToFunds, winner)) * prizePerSupply == m.pool
    && (FundKeysMatch(s) ==> PaidOut(s, s'.funds, winner, prizePerSupply))
  }

  /** The payout of `resolve_event` once every check has passed: the pool
      pays `pool / used` per ticket unit to each listing of the winning
      outcome, the listed funds are credited, and the market is marked
      resolved with its winner. */
  function Settle(s: State, eventId: EventId, winner: OutcomeId, used: nat): (r: Result<Step<()>>)
    requires eventId in s.markets && used > 0
    ensures var ids := IndexOf(s.outcomeToFunds, winner);
      var m := s.markets[eventId];
      r.Ok? <==>
        && (forall f :: f in ids ==> f in s.funds && TicketOf(s.tickets, winner, f) > 0)
        && TicketSum(s.tickets, winner, ids) * PrizePerSupply(m.pool, used) <= m.pool
    ensures r.Err? ==> r.error == SomethingWrong
    ensures r.Ok? ==> Resolved(s, r.value.state, eventId, winner, PrizePerSupply(s.markets[eventId].pool, used))
  {
    var market := s.markets[eventId];
    var prizePerSupply := PrizePerSupply(market.pool, used);
    var holdings :- GetOutcomeFunds(s, winner);
    HoldingsMatchTickets(s, winner, holdings);
    var payout :- PayFunds(holdings, prizePerSupply, market.pool);
    Ok(Step(WriteBack(s, eventId, winner, prizePerSupply, holdings, payout), ()))
  }

  /** The holdings of the winning outcome sum to its ticket sum, and are
      all positive exactly when its tickets are. */
  lemma HoldingsMatchTickets(s: State, winner: OutcomeId, holdings: seq<FundHolding>)
    requires GetOutcomeFunds(s, winner) == Ok(holdings)
    ensures HeldSupply(holdings) == TicketSum(s.tickets, winner, IndexOf(s.outcomeToFunds, winner))
    ensures (forall i :: 0 <= i < |holdings| ==> holdings[i].supply > 0)
        <==> (forall f :: f in IndexOf(s.outcomeToFunds, winner) ==> TicketOf(s.tickets, winner, f) > 0)
  {
    HeldSupplyIsTicketSum(holdings, s.tickets, winner, IndexOf(s.outcomeToFunds, winner));
  }

  /** The writes at the end of `resolve_event`: the resolved market, then
      each credited fund record under its own id. */
  function WriteBack(s: State, eventId: EventId, winner: OutcomeId, prizePerSupply: Balance,
                     holdings: seq<FundHolding>, payout: Payout): (s': State)
    requires eventId in s.markets
    requires GetOutcomeFunds(s, winner) == Ok(holdings)
    requires HeldSupply(holdings) == TicketSum(s.tickets, winner, IndexOf(s.outcomeToFunds, winner))
    requires PayFunds(holdings, prizePerSupply, s.markets[eventId].pool) == Ok(payout)
    ensures Resolved(s, s', eventId, winner, prizePerSupply)
  {
    SettledFunds(s, winner, holdings, payout.paid, prizePerSupply);
    var resolved := s.markets[eventId].(pool := payout.pool, winningOutcome := Some(winner), isResolved := true);
    s.(markets := s.markets[eventId := resolved], funds := Commit(s.funds, payout.paid))
  }

  /** The fund map `funds'` after a payout of `prizePerSupply` per ticket
      unit on outcome `winner`: every listed fund is credited once with its
      ticket's prize, every other fund is as before. */
  ghost predicate PaidOut(s: State, funds': map<FundId, InvestmentFund>, winner: OutcomeId, prizePerSupply: Balance) {
    && funds'.Keys == s.funds.Keys
    && (forall f :: f in IndexOf(s.outcomeToFunds, winner) ==>
          f in s.funds && funds'[f] == Credit(s.funds[f], TicketOf(s.tickets, winner, f) * prizePerSupply))
    && (forall f :: f in s.funds && f !in IndexOf(s.outcomeToFunds, winner) ==> funds'[f] == s.funds[f])
  }

  /** Under matching fund keys, the credited records carry the listed ids,
      so records with the same id agree. */
  lemma PaidCarriesListedIds(s: State, winner: OutcomeId, holdings: seq<FundHolding>, paid: seq<InvestmentFund>, prizePerSupply: Balance)
    requires FundKeysMatch(s)
    requires forall f :: f in IndexOf(s.outcomeToFunds, winner) ==> f in s.funds
    requires |holdings| == |IndexOf(s.outcomeToFunds, winner)| == |paid|
    requires forall i :: 0 <= i < |holdings| ==>
      var f := IndexOf(s.outcomeToFunds, winner)[i];
      holdings[i] == FundHolding(s.funds[f], TicketOf(s.tickets, winner, f))
    requires forall i :: 0 <= i < |holdings| ==> paid[i] == Credit(holdings[i].fund, holdings[i].supply * prizePerSupply)
    ensures forall i :: 0 <= i < |paid| ==> paid[i].fundId == IndexOf(s.outcomeToFunds, winner)[i]
    ensures AgreeOnIds(paid)
    ensures forall i :: 0 <= i < |paid| ==> paid[i].fundId in s.funds
    ensures forall f :: f in IndexOf(s.outcomeToFunds, winner) ==> exists i :: 0 <= i < |paid| && paid[i].fundId == f
  {
  }

  /** The fund map after the payout: listed funds are credited once from
      their snapshot, all others are untouched. */
  lemma SettledFunds(s: State, winner: OutcomeId, holdings: seq<FundHolding>, paid: seq<InvestmentFund>, prizePerSupply: Balance)
    requires forall f :: f in IndexOf(s.outcomeToFunds, winner) ==> f in s.funds
    requires |holdings| == |IndexOf(s.outcomeToFunds, winner)| == |paid|
    requires forall i :: 0 <= i < |holdings| ==>
      var f := IndexOf(s.outcomeToFunds, winner)[i];
      holdings[i] == FundHolding(s.funds[f], TicketOf(s.tickets, winner, f))
    requires forall i :: 0 <= i < |holdings| ==> paid[i] == Credit(holdings[i].fund, holdings[i].supply * prizePerSupply)
    ensures FundKeysMatch(s) ==> PaidOut(s, Commit(s.funds, paid), winner, prizePerSupply)
  {
    if FundKeysMatch(s) {
      PaidCarriesListedIds(s, winner, holdings, paid, prizePerSupply);
    }
  }

  /** A resolved market cannot be resolved again: whoever calls and
      whichever outcome is named, the second call fails, and for the owner
      naming an existing outcome it fails on the resolve-date check. */
  lemma ResolveTwiceFails(s: State, env: Env, eventId: EventId, winner: OutcomeId, env2: Env, winner2: OutcomeId)
    requires ResolveEvent(s, env, eventId, winner).Ok?
    ensures var s' := ResolveEvent(s, env, eventId, winner).value.state;
      && ResolveEvent(s', env2, eventId, winner2).Err?
      && (env2.caller == s.events[eventId].owner && winner2 in s.outcomes && winner2 in s.marketOutcomes
          ==> ResolveEvent(s', env2, eventId, winner2) == Err(ResolveDateNotMatch))
  {
    var s' := ResolveEvent(s, env, eventId, winner).value.state;
    assert s'.events == s.events && s'.outcomes == s.outcomes && s'.marketOutcomes == s.marketOutcomes;
    assert s'.eventToOutcomes == s.eventToOutcomes;
    assert s'.markets[eventId].isResolved;
  }

  /** When the tickets on the winning outcome add up to its used supply,
      a resolution that passes the owner, date and outcome checks succeeds,
      and the pool keeps exactly the floor-division remainder
      `pool % used_supply`, which is less than the used supply. */
  lemma ResolveLeavesRemainder(s: State, env: Env, eventId: EventId, winner: OutcomeId)
    requires eventId in s.events && eventId in s.markets && winner in s.outcomes && winner in s.marketOutcomes
    requires env.caller == s.events[eventId].owner
    requires s.markets[eventId].resolveDate <= env.now && !s.markets[eventId].isResolved
    requires s.outcomes[winner].eventId == eventId && UsedSupply(s, winner) > 0
    requires EventOutcomesKnown(s, eventId)
    requires forall f :: f in IndexOf(s.outcomeToFunds, winner) ==> f in s.funds && TicketOf(s.tickets, winner, f) > 0
    requires TicketSum(s.tickets, winner, IndexOf(s.outcomeToFunds, winner)) == UsedSupply(s, winner)
    ensures var r := ResolveEvent(s, env, eventId, winner);
      && r.Ok?
      && r.value.state.markets[eventId].pool == s.markets[eventId].pool % UsedSupply(s, winner)
      && r.value.state.markets[eventId].pool < UsedSupply(s, winner)
  {
    var pool, used := s.markets[eventId].pool, UsedSupply(s, winner);
    FloorFits(pool, used);
    ResolveSucceeds(s, env, eventId, winner);
    var r := ResolveEvent(s, env, eventId, winner);
    FloorRemainder(pool, used, r.value.state.markets[eventId].pool);
  }

  /** The converse of the success conditions of `resolve_event`: the
      owner resolving, from the resolve date on, an unresolved market with
      one of its own outcomes that has sold supply succeeds whenever the
      listed funds exist with positive tickets and the prizes fit in the
      pool. */
  lemma ResolveSucceeds(s: State, env: Env, eventId: EventId, winner: OutcomeId)
    requires eventId in s.events && eventId in s.markets && winner in s.outcomes && winner in s.marketOutcomes
    requires env.caller == s.events[eventId].owner
    requires s.markets[eventId].resolveDate <= env.now && !s.markets[eventId].isResolved
    requires s.outcomes[winner].eventId == eventId && UsedSupply(s, winner) > 0
    requires EventOutcomesKnown(s, eventId)
    requires forall f :: f in IndexOf(s.outcomeToFunds, winner) ==> f in s.funds && TicketOf(s.tickets, winner, f) > 0
    requires TicketSum(s.tickets, winner, IndexOf(s.outcomeToFunds, winner)) * PrizePerSupply(s.markets[eventId].pool, UsedSupply(s, winner))
             <= s.markets[eventId].pool
    ensures ResolveEvent(s, env, eventId, winner).Ok?
  {
    assert Settle(s, eventId, winner, UsedSupply(s, winner)).Ok?;
  }

  /** Paying `pool / used` to each of `used` units fits in the pool. */
  lemma FloorFits(pool: nat, used: nat)
    requires used > 0
    ensures used * (pool / used) <= pool
  {
    assert pool == used * (pool / used) + pool % used;
  }

  /** What is left after paying `pool / used` to each of `used` units. */
  lemma FloorRemainder(pool: nat, used: nat, rest: nat)
    requires used > 0 && rest + used * (pool / used) == pool
    ensures rest == pool % used && rest < used
  {
    assert pool == used * (pool / used) + pool % used;
  }
}

=== FILE: fund_ledger.dfy ===
/** Investment funds: creation, share transfer, betting and the share
    trade protocol (`create_fund`, `transfer_share`, `bet`,
    `create_proposal`, `accept_proposal`). */
module FundLedger {
  import opened Types
  import opened Store
  import opened Control

  /** `create_fund`: the caller becomes trader and sole owner of a new fund
      whose balance is the value attached to the call. The second check
      compares against the share unit with `<`, so it can never fail after
      the first: no share count is refused for not being a multiple of 100. */
  function CreateFund(s: State, env: Env, totalShare: Share, metadata: FundMetadata): (r: Result<Step<FundId>>)
    ensures totalShare < 100 <==> r == Err(AtLeast100Share)
    ensures totalShare >= 100 && env.value < MinFundDeposit <==> r == Err(DepositTooLow)
    ensures r != Err(NotDivisibleBy100)
    ensures r.Err? ==> r.error in {AtLeast100Share, DepositTooLow}
    ensures r.Ok? || r.Err?
    ensures r.Ok? ==>
      var s' := r.value.state;
      var f := r.value.output;
      && f == s.nextFundId
      && s'.nextFundId == s.nextFundId + 1
      && s'.funds == s.funds[f := InvestmentFund(f, env.caller, env.value, totalShare, metadata)]
      && ShareOf(s', f, env.caller) == totalShare
      && UpdatedOnlyAt(s.shares, s'.shares, (f, env.caller))
      && s'.(funds := s.funds, shares := s.shares, nextFundId := s.nextFundId) == s
  {
    if totalShare < 100 then Err(AtLeast100Share)
    else if totalShare < MinFundShare then Err(NotDivisibleBy100)
    else if env.value < MinFundDeposit then Err(DepositTooLow)
    else
      var f := s.nextFundId;
      Ok(Step(s.(
        nextFundId := f + 1,
        funds := s.funds[f := InvestmentFund(f, env.caller, env.value, totalShare, metadata)],
        shares := s.shares[(f, env.caller) := totalShare]), f))
  }

  /** The fund and share maps after `amount` of fund `f` has moved from
      `giver` to `taker`: only the trader of `f` may change, by the
      trader-control rule; the two balances move by `amount` (a self-transfer
      adds it); every other balance is untouched. */
  ghost predicate HandedOver(s: State, shares': map<(FundId, AccountId), Share>, funds': map<FundId, InvestmentFund>,
                             f: FundId, giver: AccountId, taker: AccountId, amount: Share)
    requires f in s.funds
  {
    var fund := s.funds[f];
    && UpdatedOnlyAt(s.funds, funds', f)
    && funds'[f] == fund.(trader := funds'[f].trader)
    && funds'[f].trader ==
         (if giver == fund.trader && 100 * amount >= ControlPercent * fund.totalShare then taker else fund.trader)
    && SharesMoved(s, shares', f, giver, taker, amount)
  }

  /** A hand-over by the trader of fund `f` that leaves nobody in
      control: neither the amount nor either party's resulting share
      reaches the threshold. */
  ghost predicate Deadlocked(s: State, f: FundId, giver: AccountId, taker: AccountId, amount: Share)
    requires f in s.funds && amount <= ShareOf(s, f, giver)
  {
    var total := s.funds[f].totalShare;
    && giver == s.funds[f].trader && total > 0
    && 100 * amount < ControlPercent * total
    && 100 * (ShareOf(s, f, giver) - amount) < ControlPercent * total
    && 100 * (ShareOf(s, f, taker) + amount) < ControlPercent * total
  }

  /** The share move both `transfer_share` and `accept_proposal` end with:
      the trader-control rule is applied to the fund record, then the two
      share entries and the fund are written. */
  function ShareHandOver(s: State, f: FundId, giver: AccountId, taker: AccountId, amount: Share): (r: Result<State>)
    requires f in s.funds && amount <= ShareOf(s, f, giver)
    ensures r == Err(TraderNotIdentitied) <==> Deadlocked(s, f, giver, taker, amount)
    ensures r.Err? ==> r.error == TraderNotIdentitied
    ensures r.Trap? <==> giver == s.funds[f].trader && s.funds[f].totalShare == 0
    ensures r.Ok? ==> r.value.(shares := s.shares, funds := s.funds) == s && HandedOver(s, r.value.shares, r.value.funds, f, giver, taker, amount)
  {
    var fund' :- HandOver(s.funds[f], giver, taker, ShareOf(s, f, giver), ShareOf(s, f, taker), amount);
    Ok(s.(shares := MoveShares(s, f, giver, taker, amount), funds := s.funds[f := fund']))
  }

  /** `transfer_share`: the caller gives `amount` of its share in a fund to
      `recipient`, under the trader-control rule, and learns the
      recipient's new balance. */
  function TransferShare(s: State, env: Env, fundId: FundId, recipient: AccountId, amount: Share): (r: Result<Step<(AccountId, Share)>>)
    ensures fundId !in s.funds <==> r == Err(FundNotFound)
    ensures fundId in s.funds && amount > ShareOf(s, fundId, env.caller) <==> r == Err(NotEnoughShare)
    ensures r == Err(TraderNotIdentitied) <==>
      fundId in s.funds && amount <= ShareOf(s, fundId, env.caller) && Deadlocked(s, fundId, env.caller, recipient, amount)
    ensures r.Err? ==> r.error in {FundNotFound, NotEnoughShare, TraderNotIdentitied}
    ensures r.Trap? <==>
      && fundId in s.funds && amount <= ShareOf(s, fundId, env.caller)
      && env.caller == s.funds[fundId].trader && s.funds[fundId].totalShare == 0
    ensures r.Ok? ==>
      && fundId in s.funds
      && r.value.output == (recipient, ShareOf(s, fundId, recipient) + amount)
      && r.value.state.(shares := s.shares, funds := s.funds) == s
      && HandedOver(s, r.value.state.shares, r.value.state.funds, fundId, env.caller, recipient, amount)
  {
    var sender := env.caller;
    var _ :- GetFundById(s, fundId);
    if amount > ShareOf(s, fundId, sender) then Err(NotEnoughShare)
    else
      var s' :- ShareHandOver(s, fundId, sender, recipient, amount);
      Ok(Step(s', (recipient, ShareOf(s, fundId, recipient) + amount)))
  }

  /** The first checks of `bet` pass: the fund exists, the caller is its
      trader, and the outcome exists with its market entry. */
  predicate BetTarget(s: State, env: Env, outcomeId: OutcomeId, fundId: FundId) {
    && fundId in s.funds && s.funds[fundId].trader == env.caller
    && outcomeId in s.outcomes && outcomeId in s.marketOutcomes
  }

  /** The event of the outcome is found and its market takes bets: it is
      unresolved and its resolve date has come. */
  predicate BetMarketOpen(s: State, env: Env, outcomeId: OutcomeId, fundId: FundId) {
    && BetTarget(s, env, outcomeId, fundId)
    && var e := s.outcomes[outcomeId].eventId;
       && e in s.events && e in s.markets && EventOutcomesKnown(s, e)
       && !s.markets[e].isResolved && s.markets[e].resolveDate <= env.now
  }

  /** `bet`: the trader of a fund buys `supplies` units of an outcome. The
      attached value is paid into the event's pool and debited from the
      fund's balance; the ticket `(outcome, fund)` is set to `supplies`,
      replacing any earlier ticket, and the fund is listed on the outcome
      once more. Bets are accepted only from the resolve date on. Each
      error is reported exactly when the checks before it pass and its own
      fails. */
  function Bet(s: State, env: Env, outcomeId: OutcomeId, fundId: FundId, supplies: Supply): (r: Result<Step<()>>)
    ensures fundId !in s.funds <==> r == Err(FundNotFound)
    ensures fundId in s.funds && s.funds[fundId].trader != env.caller <==> r == Err(NotOwner)
    ensures fundId in s.funds && s.funds[fundId].trader == env.caller && (outcomeId !in s.outcomes || outcomeId !in s.marketOutcomes)
            <==> r.Trap?
    ensures r == Err(EventNotFound) <==>
      && BetTarget(s, env, outcomeId, fundId)
      && (s.outcomes[outcomeId].eventId !in s.events || s.outcomes[outcomeId].eventId !in s.markets)
    ensures r == Err(WrongEventOutCome) <==>
      && BetTarget(s, env, outcomeId, fundId)
      && var e := s.outcomes[outcomeId].eventId;
         e in s.events && e in s.markets && !EventOutcomesKnown(s, e)
    ensures r == Err(ResolveDateNotMatch) <==>
      && BetTarget(s, env, outcomeId, fundId)
      && var e := s.outcomes[outcomeId].eventId;
         && e in s.events && e in s.markets && EventOutcomesKnown(s, e)
         && (s.markets[e].isResolved || env.now < s.markets[e].resolveDate)
    ensures r == Err(OutOfSupply) <==>
      BetMarketOpen(s, env, outcomeId, fundId) && supplies > s.marketOutcomes[outcomeId].availableSupply
    ensures r == Err(MoreThanOneSupply) <==>
      BetMarketOpen(s, env, outcomeId, fundId) && supplies <= s.marketOutcomes[outcomeId].availableSupply && supplies == 0
    ensures r == Err(DepositTooLow) <==>
      && BetMarketOpen(s, env, outcomeId, fundId) && 0 < supplies <= s.marketOutcomes[outcomeId].availableSupply
      && env.value < supplies * s.outcomes[outcomeId].depositPerSupply
    ensures r == Err(NotEnoughBalance) <==>
      && BetMarketOpen(s, env, outcomeId, fundId) && 0 < supplies <= s.marketOutcomes[outcomeId].availableSupply
      && supplies * s.outcomes[outcomeId].depositPerSupply <= env.value
      && env.value > s.funds[fundId].totalFund
    ensures r.Ok? <==>
      && BetMarketOpen(s, env, outcomeId, fundId) && 0 < supplies <= s.marketOutcomes[outcomeId].availableSupply
      && supplies * s.outcomes[outcomeId].depositPerSupply <= env.value <= s.funds[fundId].totalFund
    ensures r.Ok? ==>
      && BetMarketOpen(s, env, outcomeId, fundId)
      && BetPlaced(s, r.value.state, env.value, outcomeId, fundId, supplies)
  {
    var fund :- GetFundById(s, fundId);
    if fund.trader != env.caller then Err(NotOwner)
    else if outcomeId !in s.outcomes || outcomeId !in s.marketOutcomes then Trap
    else BetOnMarket(s, env, outcomeId, fundId, supplies)
  }

  /** The rest of `bet` once the fund, the caller and the outcome check
      out: the event lookup, then the date, supply, unit, deposit and
      balance checks, in that order. */
  function BetOnMarket(s: State, env: Env, outcomeId: OutcomeId, fundId: FundId, supplies: Supply): (r: Result<Step<()>>)
    requires BetTarget(s, env, outcomeId, fundId)
    ensures !r.Trap?
    ensures var e := s.outcomes[outcomeId].eventId;
      e !in s.events || e !in s.markets <==> r == Err(EventNotFound)
    ensures var e := s.outcomes[outcomeId].eventId;
      e in s.events && e in s.markets && !EventOutcomesKnown(s, e) <==> r == Err(WrongEventOutCome)
    ensures var e := s.outcomes[outcomeId].eventId;
      && e in s.events && e in s.markets && EventOutcomesKnown(s, e)
      && (s.markets[e].isResolved || env.now < s.markets[e].resolveDate)
      <==> r == Err(ResolveDateNotMatch)
    ensures BetMarketOpen(s, env, outcomeId, fundId) && supplies > s.marketOutcomes[outcomeId].availableSupply
            <==> r == Err(OutOfSupply)
    ensures BetMarketOpen(s, env, outcomeId, fundId) && supplies <= s.marketOutcomes[outcomeId].availableSupply && supplies == 0
            <==> r == Err(MoreThanOneSupply)
    ensures (r.Err? && r.error in {DepositTooLow, NotEnoughBalance}) || r.Ok? ==>
      BetMarketOpen(s, env, outcomeId, fundId) && 0 < supplies <= s.marketOutcomes[outcomeId].availableSupply
    ensures BetMarketOpen(s, env, outcomeId, fundId) && 0 < supplies <= s.marketOutcomes[outcomeId].availableSupply ==>
      r == BetPayment(s, env, outcomeId, fundId, supplies)
  {
    var outcome := s.outcomes[outcomeId];
    var marketOutcome := s.marketOutcomes[outcomeId];
    var view :- GetEventById(s, outcome.eventId);
    var market := view.market;
    if market.isResolved || env.now < market.resolveDate then Err(ResolveDateNotMatch)
    else if supplies > marketOutcome.availableSupply then Err(OutOfSupply)
    else if supplies == 0 then Err(MoreThanOneSupply)
    else BetPayment(s, env, outcomeId, fundId, supplies)
  }

  /** The payment checks of `bet`, last of all: the attached value must
      cover the units and the fund's balance must cover the value. */
  function BetPayment(s: State, env: Env, outcomeId: OutcomeId, fundId: FundId, supplies: Supply): (r: Result<Step<()>>)
    requires BetMarketOpen(s, env, outcomeId, fundId) && supplies <= s.marketOutcomes[outcomeId].availableSupply
    ensures env.value < supplies * s.outcomes[outcomeId].depositPerSupply <==> r == Err(DepositTooLow)
    ensures supplies * s.outcomes[outcomeId].depositPerSupply <= env.value && env.value > s.funds[fundId].totalFund
            <==> r == Err(NotEnoughBalance)
    ensures r.Ok? <==> supplies * s.outcomes[outcomeId].depositPerSupply <= env.value <= s.funds[fundId].totalFund
    ensures r.Ok? ==> BetPlaced(s, r.value.state, env.value, outcomeId, fundId, supplies)
  {
    if env.value < supplies * s.outcomes[outcomeId].depositPerSupply then Err(DepositTooLow)
    else if env.value > s.funds[fundId].totalFund then Err(NotEnoughBalance)
    else Ok(Step(PlaceBet(s, env.value, outcomeId, fundId, supplies), ()))
  }

  /** The storage `s'` after fund `fundId` bets `supplies` units of
      outcome `outcomeId` for `value`: the units leave the available supply,
      the value moves from the fund's balance to the event's pool, the
      ticket is set to `supplies` and each side's index list grows by one
      entry; nothing else changes. */
  ghost predicate BetPlaced(s: State, s': State, value: Balance, outcomeId: OutcomeId, fundId: FundId, supplies: Supply)
    requires fundId in s.funds && outcomeId in s.outcomes && outcomeId in s.marketOutcomes
    requires s.outcomes[outcomeId].eventId in s.markets
  {
    var e := s.outcomes[outcomeId].eventId;
    && s'.(marketOutcomes := s.marketOutcomes, tickets := s.tickets, outcomeToFunds := s.outcomeToFunds,
           fundToOutcomes := s.fundToOutcomes, markets := s.markets, funds := s.funds) == s
    && UpdatedOnlyAt(s.marketOutcomes, s'.marketOutcomes, outcomeId)
    && s'.marketOutcomes[outcomeId].availableSupply + supplies == s.marketOutcomes[outcomeId].availableSupply
    && s'.marketOutcomes[outcomeId] == s.marketOutcomes[outcomeId].(availableSupply := s'.marketOutcomes[outcomeId].availableSupply)
    && UpdatedOnlyAt(s.funds, s'.funds, fundId)
    && UpdatedOnlyAt(s.markets, s'.markets, e)
    && s'.funds[fundId].totalFund + s'.markets[e].pool == s.funds[fundId].totalFund + s.markets[e].pool
    && s'.funds[fundId].totalFund + value == s.funds[fundId].totalFund
    && s'.funds[fundId] == s.funds[fundId].(totalFund := s'.funds[fundId].totalFund)
    && s'.markets[e] == s.markets[e].(pool := s'.markets[e].pool)
    && UpdatedOnlyAt(s.tickets, s'.tickets, (outcomeId, fundId))
    && TicketOf(s'.tickets, outcomeId, fundId) == supplies
    && IndexOf(s'.outcomeToFunds, outcomeId) == IndexOf(s.outcomeToFunds, outcomeId) + [fundId]
    && UpdatedOnlyAt(s.outcomeToFunds, s'.outcomeToFunds, outcomeId)
    && IndexOf(s'.fundToOutcomes, fundId) == IndexOf(s.fundToOutcomes, fundId) + [outcomeId]
    && UpdatedOnlyAt(s.fundToOutcomes, s'.fundToOutcomes, fundId)
  }

  /** The writes of a bet that passed every check. */
  function PlaceBet(s: State, value: Balance, outcomeId: OutcomeId, fundId: FundId, supplies: Supply): (s': State)
    requires fundId in s.funds && outcomeId in s.outcomes && outcomeId in s.marketOutcomes
    requires s.outcomes[outcomeId].eventId in s.markets
    requires supplies <= s.marketOutcomes[outcomeId].availableSupply && value <= s.funds[fundId].totalFund
    ensures BetPlaced(s, s', value, outcomeId, fundId, supplies)
  {
    var e := s.outcomes[outcomeId].eventId;
    var mo := s.marketOutcomes[outcomeId];
    var market := s.markets[e];
    var fund := s.funds[fundId];
    s.(
      marketOutcomes := s.marketOutcomes[outcomeId := mo.(availableSupply := mo.availableSupply - supplies)],
      tickets := s.tickets[(outcomeId, fundId) := supplies],
      outcomeToFunds := s.outcomeToFunds[outcomeId := IndexOf(s.outcomeToFunds, outcomeId) + [fundId]],
      fundToOutcomes := s.fundToOutcomes[fundId := IndexOf(s.fundToOutcomes, fundId) + [outcomeId]],
      markets := s.markets[e := market.(pool := market.pool + value)],
      funds := s.funds[fundId := fund.(totalFund := fund.totalFund - value)])
  }

  /** `create_proposal`: a share owner offers `amount` of its share in a
      fund for `price`, optionally to one named counterparty, open until
      `now + duration` (or the default duration). */
  function CreateProposal(s: State, env: Env, fundId: FundId, amount: Share, price: Balance,
                          duration: Option<Timestamp>, proposedPerson: Option<AccountId>): (r: Result<Step<TradeId>>)
    ensures fundId !in s.funds <==> r == Err(FundNotFound)
    ensures fundId in s.funds && ShareOf(s, fundId, env.caller) < amount <==> r == Err(NotEnoughShare)
    ensures r.Ok? || r.Err?
    ensures r.Err? ==> r.error in {FundNotFound, NotEnoughShare}
    ensures r.Ok? ==>
      var s' := r.value.state;
      var t := r.value.output;
      && t == s.nextTradeId
      && s'.nextTradeId == s.nextTradeId + 1
      && s'.trades == s.trades[t := FundTrade(fundId, t, env.caller, proposedPerson, amount, price,
                                             env.now + (if duration.Some? then duration.value else DefaultDuration), false)]
      && IndexOf(s'.fundToTrades, fundId) == IndexOf(s.fundToTrades, fundId) + [t]
      && UpdatedOnlyAt(s.fundToTrades, s'.fundToTrades, fundId)
      && IndexOf(s'.proponentToTrades, env.caller) == IndexOf(s.proponentToTrades, env.caller) + [t]
      && UpdatedOnlyAt(s.proponentToTrades, s'.proponentToTrades, env.caller)
      && s'.(trades := s.trades, fundToTrades := s.fundToTrades, proponentToTrades := s.proponentToTrades,
             nextTradeId := s.nextTradeId) == s
  {
    var _ :- GetFundById(s, fundId);
    if ShareOf(s, fundId, env.caller) < amount then Err(NotEnoughShare)
    else
      var closeTime := env.now + (if duration.Some? then duration.value else DefaultDuration);
      var t := s.nextTradeId;
      var trade := FundTrade(fundId, t, env.caller, proposedPerson, amount, price, closeTime, false);
      Ok(Step(s.(
        nextTradeId := t + 1,
        trades := s.trades[t := trade],
        fundToTrades := s.fundToTrades[fundId := IndexOf(s.fundToTrades, fundId) + [t]],
        proponentToTrades := s.proponentToTrades[env.caller := IndexOf(s.proponentToTrades, env.caller) + [t]]), t))
  }

  /** The state after trade `tradeId` is accepted by `taker`: the trade
      is closed, its share is handed over from the proponent to the taker,
      and nothing else changes. */
  ghost predicate Traded(s: State, s': State, tradeId: TradeId, taker: AccountId)
    requires tradeId in s.trades && s.trades[tradeId].fundId in s.funds
  {
    var t := s.trades[tradeId];
    && s'.(trades := s.trades, shares := s.shares, funds := s.funds) == s
    && s'.trades == s.trades[tradeId := t.(isCompleted := true)]
    && HandedOver(s, s'.shares, s'.funds, t.fundId, t.proponent, taker, t.share)
  }

  /** The second half of `accept_proposal`, once the offer is known to be
      open, in time, addressed to the caller, paid for and still covered
      by the proponent's share. */
  function CompleteTrade(s: State, taker: AccountId, tradeId: TradeId): (r: Result<Step<()>>)
    requires tradeId in s.trades
    requires s.trades[tradeId].share <= ShareOf(s, s.trades[tradeId].fundId, s.trades[tradeId].proponent)
    ensures s.trades[tradeId].fundId !in s.funds <==> r == Err(FundNotFound)
    ensures r == Err(TraderNotIdentitied) <==>
      var t := s.trades[tradeId];
      t.fundId in s.funds && Deadlocked(s, t.fundId, t.proponent, taker, t.share)
    ensures r.Err? ==> r.error in {FundNotFound, TraderNotIdentitied}
    ensures r.Trap? <==>
      var t := s.trades[tradeId];
      t.fundId in s.funds && t.proponent == s.funds[t.fundId].trader && s.funds[t.fundId].totalShare == 0
    ensures r.Ok? ==> s.trades[tradeId].fundId in s.funds && Traded(s, r.value.state, tradeId, taker)
  {
    var trade := s.trades[tradeId];
    var _ :- GetFundById(s, trade.fundId);
    var s' :- ShareHandOver(s, trade.fundId, trade.proponent, taker, trade.share);
    Ok(Step(s'.(trades := s.trades[tradeId := trade.(isCompleted := true)]), ()))
  }

  /** Offer `tradeId` exists, is open and not yet closed, and the caller
      may take it. */
  predicate OfferOpen(s: State, env: Env, tradeId: TradeId) {
    && tradeId in s.trades && !s.trades[tradeId].isCompleted && env.now <= s.trades[tradeId].closeTime
    && (s.trades[tradeId].proposedPerson.Some? ==> s.trades[tradeId].proposedPerson.value == env.caller)
  }

  /** The offer is open, the attached value covers its price and the
      proponent still holds the offered share. */
  predicate OfferCovered(s: State, env: Env, tradeId: TradeId) {
    && OfferOpen(s, env, tradeId)
    && s.trades[tradeId].price <= env.value
    && s.trades[tradeId].share <= ShareOf(s, s.trades[tradeId].fundId, s.trades[tradeId].proponent)
  }

  /** `accept_proposal`: the caller takes an open offer before it closes,
      attaching at least its price. The shares move from the proponent to
      the caller under the trader-control rule and the offer is closed; the
      attached value does not reach the fund's balance. Each error is
      reported exactly when the checks before it pass and its own fails. */
  function AcceptProposal(s: State, env: Env, tradeId: TradeId): (r: Result<Step<()>>)
    ensures tradeId !in s.trades <==> r == Err(TradeNotFound)
    ensures tradeId in s.trades && s.trades[tradeId].isCompleted <==> r == Err(TradeNotAvailable)
    ensures tradeId in s.trades && !s.trades[tradeId].isCompleted && env.now > s.trades[tradeId].closeTime
            <==> r == Err(TimeExpired)
    ensures r == Err(NotOwner) <==>
      && tradeId in s.trades && !s.trades[tradeId].isCompleted && env.now <= s.trades[tradeId].closeTime
      && s.trades[tradeId].proposedPerson.Some? && s.trades[tradeId].proposedPerson.value != env.caller
    ensures OfferOpen(s, env, tradeId) && env.value < s.trades[tradeId].price <==> r == Err(DepositTooLow)
    ensures r == Err(NotEnoughShare) <==>
      && OfferOpen(s, env, tradeId) && s.trades[tradeId].price <= env.value
      && ShareOf(s, s.trades[tradeId].fundId, s.trades[tradeId].proponent) < s.trades[tradeId].share
    ensures OfferCovered(s, env, tradeId) && s.trades[tradeId].fundId !in s.funds <==> r == Err(FundNotFound)
    ensures r == Err(TraderNotIdentitied) <==>
      && OfferCovered(s, env, tradeId)
      && var t := s.trades[tradeId];
         t.fundId in s.funds && Deadlocked(s, t.fundId, t.proponent, env.caller, t.share)
    ensures r.Trap? <==>
      && OfferCovered(s, env, tradeId)
      && var t := s.trades[tradeId];
         t.fundId in s.funds && t.proponent == s.funds[t.fundId].trader && s.funds[t.fundId].totalShare == 0
    ensures r.Ok? <==>
      && OfferCovered(s, env, tradeId)
      && var t := s.trades[tradeId];
         && t.fundId in s.funds
         && !Deadlocked(s, t.fundId, t.proponent, env.caller, t.share)
         && !(t.proponent == s.funds[t.fundId].trader && s.funds[t.fundId].totalShare == 0)
    ensures r.Ok? ==> OfferCovered(s, env, tradeId) && Traded(s, r.value.state, tradeId, env.caller)
  {
    var trade :- GetTradeById(s, tradeId);
    if trade.isCompleted then Err(TradeNotAvailable)
    else if env.now > trade.closeTime then Err(TimeExpired)
    else if trade.proposedPerson.Some? && env.caller != trade.proposedPerson.value then Err(NotOwner)
    else if env.value < trade.price then Err(DepositTooLow)
    else if ShareOf(s, trade.fundId, trade.proponent) < trade.share then Err(NotEnoughShare)
    else CompleteTrade(s, env.caller, tradeId)
  }

  /** Any share count from 100 up is accepted, multiple of 100 or not. */
  lemma AnyShareCountFrom100(s: State, env: Env, totalShare: Share, metadata: FundMetadata)
    requires totalShare >= MinFundShare && env.value >= MinFundDeposit
    ensures CreateFund(s, env, totalShare, metadata).Ok?
    ensures CreateFund(s, env, 150, metadata).Ok?
  {
  }

  /** The trader hands over control with 51 % of the total share in one
      transfer; with 50 %, when neither side ends at 51 %, the transfer is
      refused. */
  lemma MajorityBoundary(s: State, env: Env, fundId: FundId, recipient: AccountId)
    requires fundId in s.funds && s.funds[fundId].trader == env.caller
    requires s.funds[fundId].totalShare == 100 && ShareOf(s, fundId, env.caller) == 100
    requires recipient != env.caller && ShareOf(s, fundId, recipient) == 0
    ensures var r := TransferShare(s, env, fundId, recipient, 51);
      r.Ok? && r.value.state.funds[fundId].trader == recipient
    ensures TransferShare(s, env, fundId, recipient, 50) == Err(TraderNotIdentitied)
  {
    var r := TransferShare(s, env, fundId, recipient, 51);
    assert r.Ok? by {
      var fund := s.funds[fundId];
      assert HandOver(fund, env.caller, recipient, 100, 0, 51).Ok?;
    }
  }

  /** A transfer to oneself is never refused and adds the amount to the
      sender's balance: a sole owner ends up holding more than the fund's
      total share. */
  lemma SelfTransferInflates(s: State, env: Env, fundId: FundId, amount: Share)
    requires fundId in s.funds && ShareOf(s, fundId, env.caller) == s.funds[fundId].totalShare
    requires 0 < amount <= s.funds[fundId].totalShare
    ensures var r := TransferShare(s, env, fundId, env.caller, amount);
      && r.Ok?
      && ShareOf(r.value.state, fundId, env.caller) == s.funds[fundId].totalShare + amount
      && ShareOf(r.value.state, fundId, env.caller) > r.value.state.funds[fundId].totalShare
  {
    var total := s.funds[fundId].totalShare;
    assert 100 * (total + amount) >= ControlPercent * total;
    assert !Deadlocked(s, fundId, env.caller, env.caller, amount);
  }

  /** An accepted offer is closed: nobody can accept it again. */
  lemma AcceptOnce(s: State, env: Env, tradeId: TradeId, env2: Env)
    requires AcceptProposal(s, env, tradeId).Ok?
    ensures AcceptProposal(AcceptProposal(s, env, tradeId).value.state, env2, tradeId) == Err(TradeNotAvailable)
  {
  }

  /** An offer made at time `now` with duration `d` can no longer be
      accepted after `now + d`. */
  lemma OfferExpires(s: State, env: Env, fundId: FundId, amount: Share, price: Balance, d: Timestamp,
                     proposedPerson: Option<AccountId>, env2: Env)
    requires CreateProposal(s, env, fundId, amount, price, Some(d), proposedPerson).Ok?
    requires env2.now > env.now + d
    ensures var r := CreateProposal(s, env, fundId, amount, price, Some(d), proposedPerson).value;
      AcceptProposal(r.state, env2, r.output) == Err(TimeExpired)
  {
  }
}

=== FILE: history.dfy ===
/** What the storage never takes back: a filed event, a resolved market,
    a completed offer and a filed outcome stay exactly as they are under every later
    message. This rests on `create_event` and `create_proposal` filing
    under fresh ids. */
module History {
  import opened Types
  import opened Store
  import opened EventMarket
  import opened FundLedger
  import opened Invariant

  /** Event, market and offer ids in use are below the next id to hand
      out, so new events and offers never land on an existing one. */
  ghost predicate IdsIssued(s: State) {
    && (forall e :: e in s.events ==> e < s.nextEventId)
    && (forall e :: e in s.markets ==> e < s.nextEventId)
    && (forall t :: t in s.trades ==> t < s.nextTradeId)
  }

  /** From `s` to `s'`, event `e` if filed, its market if resolved, offer
      `t` if completed and outcome `o` if filed are all still there,
      unchanged. */
  ghost predicate Keeps(s: State, s': State, e: EventId, t: TradeId, o: OutcomeId) {
    && (e in s.events ==> e in s'.events && s'.events[e] == s.events[e])
    && (e in s.markets && s.markets[e].isResolved ==> e in s'.markets && s'.markets[e] == s.markets[e])
    && (t in s.trades && s.trades[t].isCompleted ==> t in s'.trades && s'.trades[t] == s.trades[t])
    && (o in s.outcomes ==> o in s'.outcomes && s'.outcomes[o] == s.outcomes[o])
  }

  lemma InitialIdsIssued()
    ensures IdsIssued(Initial())
  {
  }

  /** `create_event` files under the next ids, above every market and
      outcome already filed. */
  lemma CreateEventKeeps(s: State, env: Env, question: string, resolveDate: Timestamp,
                         bets: seq<OutcomePayload>, metadata: EventMetadata, e: EventId, t: TradeId, o: OutcomeId)
    requires Valid(s) && IdsIssued(s)
    ensures var r := CreateEvent(s, env, question, resolveDate, bets, metadata);
      r.Ok? ==> Keeps(s, r.value.state, e, t, o) && IdsIssued(r.value.state)
  {
    var r := CreateEvent(s, env, question, resolveDate, bets, metadata);
    if r.Ok? {
      var s' := r.value.state;
      assert OutcomeRecordsAdded(s.outcomes, s'.outcomes, s.nextOutcomeId, s.nextEventId, bets);
      if o in s.outcomes {
        assert o !in IdRange(s.nextOutcomeId, |bets|);
      }
      if e in s.events {
        assert e != s.nextEventId;
      }
    }
  }

  /** `resolve_event` only writes a market that was unresolved. */
  lemma ResolveEventKeeps(s: State, env: Env, eventId: EventId, winner: OutcomeId, e: EventId, t: TradeId, o: OutcomeId)
    requires IdsIssued(s)
    ensures var r := ResolveEvent(s, env, eventId, winner);
      r.Ok? ==> Keeps(s, r.value.state, e, t, o) && IdsIssued(r.value.state)
  {
    var r := ResolveEvent(s, env, eventId, winner);
    if r.Ok? {
      assert eventId in s.markets && !s.markets[eventId].isResolved;
      assert Resolved(s, r.value.state, eventId, winner, PrizePerSupply(s.markets[eventId].pool, UsedSupply(s, winner)));
    }
  }

  lemma CreateFundKeeps(s: State, env: Env, totalShare: Share, metadata: FundMetadata, e: EventId, t: TradeId, o: OutcomeId)
    requires IdsIssued(s)
    ensures var r := CreateFund(s, env, totalShare, metadata);
      r.Ok? ==> Keeps(s, r.value.state, e, t, o) && IdsIssued(r.value.state)
  {
  }

  lemma TransferShareKeeps(s: State, env: Env, fundId: FundId, recipient: AccountId, amount: Share,
                           e: EventId, t: TradeId, o: OutcomeId)
    requires IdsIssued(s)
    ensures var r := TransferShare(s, env, fundId, recipient, amount);
      r.Ok? ==> Keeps(s, r.value.state, e, t, o) && IdsIssued(r.value.state)
  {
  }

  /** `bet` only writes the market of an open event. */
  lemma BetKeeps(s: State, env: Env, outcomeId: OutcomeId, fundId: FundId, supplies: Supply,
                 e: EventId, t: TradeId, o: OutcomeId)
    requires IdsIssued(s)
    ensures var r := Bet(s, env, outcomeId, fundId, supplies);
      r.Ok? ==> Keeps(s, r.value.state, e, t, o) && IdsIssued(r.value.state)
  {
    var r := Bet(s, env, outcomeId, fundId, supplies);
    if r.Ok? {
      assert BetMarketOpen(s, env, outcomeId, fundId);
      assert BetPlaced(s, r.value.state, env.value, outcomeId, fundId, supplies);
    }
  }

  /** `create_proposal` files the offer under the next trade id, above
      every offer already filed. */
  lemma CreateProposalKeeps(s: State, env: Env, fundId: FundId, amount: Share, price: Balance,
                            duration: Option<Timestamp>, proposedPerson: Option<AccountId>,
                            e: EventId, t: TradeId, o: OutcomeId)
    requires IdsIssued(s)
    ensures var r := CreateProposal(s, env, fundId, amount, price, duration, proposedPerson);
      r.Ok? ==> Keeps(s, r.value.state, e, t, o) && IdsIssued(r.value.state)
  {
  }

  /** `accept_proposal` only writes an offer that was open. */
  lemma AcceptProposalKeeps(s: State, env: Env, tradeId: TradeId, e: EventId, t: TradeId, o: OutcomeId)
    requires IdsIssued(s)
    ensures var r := AcceptProposal(s, env, tradeId);
      r.Ok? ==> Keeps(s, r.value.state, e, t, o) && IdsIssued(r.value.state)
  {
    var r := AcceptProposal(s, env, tradeId);
    if r.Ok? {
      assert OfferCovered(s, env, tradeId);
      assert Traded(s, r.value.state, tradeId, env.caller);
    }
  }
}

=== FILE: invariant.dfy ===
/** What every message keeps true of the storage, and the bookkeeping
    between an outcome's sold supply and the bet tickets filed on it. */
module Invariant {
  import opened Types
  import opened Store
  import opened EventMarket
  import opened FundLedger

  /** The storage a run of the contract can reach from deployment:
      - every fund is filed under its own id;
      - events have markets and outcomes have market entries, both ways;
      - outcome ids are below the next id to hand out;
      - no outcome has sold more than its total supply;
      - funds are only listed on known outcomes, the listed funds exist and
        hold a positive ticket there;
      - the outcomes an event lists exist. */
  ghost predicate Valid(s: State) {
    && FundKeysMatch(s)
    && TablesPaired(s)
    && OutcomeIdsIssued(s)
    && WithinSupply(s)
    && ListingsKnown(s)
    && EventListsKnown(s)
  }

  ghost predicate TablesPaired(s: State) {
    && (forall e :: e in s.events <==> e in s.markets)
    && (forall o :: o in s.outcomes <==> o in s.marketOutcomes)
  }

  ghost predicate OutcomeIdsIssued(s: State) {
    forall o :: o in s.outcomes ==> o < s.nextOutcomeId
  }

  ghost predicate WithinSupply(s: State) {
    forall o :: o in s.marketOutcomes ==> o in s.outcomes && s.marketOutcomes[o].availableSupply <= s.outcomes[o].totalSupply
  }

  ghost predicate ListingsKnown(s: State) {
    && (forall o :: o in s.outcomeToFunds ==> o in s.outcomes)
    && (forall o, f :: o in s.outcomeToFunds && f in s.outcomeToFunds[o] ==> f in s.funds && TicketOf(s.tickets, o, f) > 0)
  }

  ghost predicate EventListsKnown(s: State) {
    forall e, o :: e in s.eventToOutcomes && o in s.eventToOutcomes[e] ==> o in s.outcomes
  }

  /** The supply sold on outcome `o` is exactly what the tickets of the
      funds listed on it add up to. */
  ghost predicate SupplyBalanced(s: State, o: OutcomeId) {
    && o in s.outcomes && o in s.marketOutcomes
    && UsedSupply(s, o) == TicketSum(s.tickets, o, IndexOf(s.outcomeToFunds, o))
  }

  lemma InitialValid()
    ensures Valid(Initial())
  {
  }

  /** A message that leaves the outcome tables, the event lists and the
      ticket bookkeeping alone, keeps the fund and market key sets and files
      every fund under its own id keeps `Valid`. */
  lemma OutcomesUntouchedValid(s: State, s': State)
    requires Valid(s) && FundKeysMatch(s')
    requires s'.outcomes == s.outcomes && s'.marketOutcomes == s.marketOutcomes && s'.nextOutcomeId == s.nextOutcomeId
    requires s'.events == s.events && forall e :: e in s'.markets <==> e in s.markets
    requires s'.eventToOutcomes == s.eventToOutcomes && s'.outcomeToFunds == s.outcomeToFunds && s'.tickets == s.tickets
    requires s'.funds.Keys >= s.funds.Keys
    ensures Valid(s')
  {
    assert TablesPaired(s');
    ListingsFrame(s, s');
  }

  lemma CreateEventKeepsValid(s: State, env: Env, question: string, resolveDate: Timestamp,
                              bets: seq<OutcomePayload>, metadata: EventMetadata)
    requires Valid(s)
    ensures var r := CreateEvent(s, env, question, resolveDate, bets, metadata);
      r.Ok? ==> Valid(r.value.state)
  {
    var r := CreateEvent(s, env, question, resolveDate, bets, metadata);
    if r.Ok? {
      NewEventValid(s, r.value.state, r.value.output, bets);
    }
  }

  /** The effect of `create_event` keeps `Valid`. */
  lemma NewEventValid(s: State, s': State, e: EventId, bets: seq<OutcomePayload>)
    requires Valid(s)
    requires OutcomesAdded(s, s'.outcomes, s'.marketOutcomes, e, bets)
    requires s'.funds == s.funds && s'.tickets == s.tickets && s'.outcomeToFunds == s.outcomeToFunds
    requires s'.nextOutcomeId == s.nextOutcomeId + |bets|
    requires s'.events.Keys == s.events.Keys + {e} && s'.markets.Keys == s.markets.Keys + {e}
    requires s'.eventToOutcomes == s.eventToOutcomes[e := ConsecutiveIds(s.nextOutcomeId, |bets|)]
    ensures Valid(s')
  {
    NewOutcomesWithinSupply(s, s', e, bets);
    NewEventListsKnownOutcomes(s, s', e, bets);
    NewOutcomesIssued(s, s', e, bets);
    NewTablesPaired(s, s', e, bets);
    ListingsFrame(s, s');
  }

  lemma NewTablesPaired(s: State, s': State, e: EventId, bets: seq<OutcomePayload>)
    requires TablesPaired(s)
    requires OutcomesAdded(s, s'.outcomes, s'.marketOutcomes, e, bets)
    requires s'.events.Keys == s.events.Keys + {e} && s'.markets.Keys == s.markets.Keys + {e}
    ensures TablesPaired(s')
  {
  }

  /** Listings stay valid while the outcome and fund key sets only grow
      and the listings and tickets stay as they are. */
  lemma ListingsFrame(s: State, s': State)
    requires ListingsKnown(s)
    requires s'.outcomes.Keys >= s.outcomes.Keys && s'.funds.Keys >= s.funds.Keys
    requires s'.outcomeToFunds == s.outcomeToFunds && s'.tickets == s.tickets
    ensures ListingsKnown(s')
  {
  }

  lemma NewOutcomesIssued(s: State, s': State, e: EventId, bets: seq<OutcomePayload>)
    requires OutcomeIdsIssued(s)
    requires OutcomesAdded(s, s'.outcomes, s'.marketOutcomes, e, bets)
    requires s'.nextOutcomeId == s.nextOutcomeId + |bets|
    ensures OutcomeIdsIssued(s')
  {
    forall o | o in s'.outcomes
      ensures o < s'.nextOutcomeId
    {
      if o !in IdRange(s.nextOutcomeId, |bets|) {
        assert o in s.outcomes;
      }
    }
  }

  lemma NewOutcomesWithinSupply(s: State, s': State, e: EventId, bets: seq<OutcomePayload>)
    requires WithinSupply(s)
    requires OutcomesAdded(s, s'.outcomes, s'.marketOutcomes, e, bets)
    ensures WithinSupply(s')
  {
    var first := s.nextOutcomeId;
    forall o | o in s'.marketOutcomes
      ensures o in s'.outcomes && s'.marketOutcomes[o].availableSupply <= s'.outcomes[o].totalSupply
    {
      if o !in IdRange(first, |bets|) {
        assert o in s.marketOutcomes && o in s.outcomes;
      }
    }
  }

  lemma NewEventListsKnownOutcomes(s: State, s': State, e: EventId, bets: seq<OutcomePayload>)
    requires EventListsKnown(s)
    requires s'.outcomes.Keys == s.outcomes.Keys + IdRange(s.nextOutcomeId, |bets|)
    requires s'.eventToOutcomes == s.eventToOutcomes[e := ConsecutiveIds(s.nextOutcomeId, |bets|)]
    ensures EventListsKnown(s')
  {
    forall e', o | e' in s'.eventToOutcomes && o in s'.eventToOutcomes[e']
      ensures o in s'.outcomes
    {
      if e' == e {
        var ids := ConsecutiveIds(s.nextOutcomeId, |bets|);
        var i :| 0 <= i < |ids| && ids[i] == o;
        assert o in IdRange(s.nextOutcomeId, |bets|);
      }
    }
  }

  lemma ResolveEventKeepsValid(s: State, env: Env, eventId: EventId, winner: OutcomeId)
    requires Valid(s)
    ensures var r := ResolveEvent(s, env, eventId, winner);
      r.Ok? ==> Valid(r.value.state)
  {
    var r := ResolveEvent(s, env, eventId, winner);
    if r.Ok? {
      var prizePerSupply := PrizePerSupply(s.markets[eventId].pool, UsedSupply(s, winner));
      assert Resolved(s, r.value.state, eventId, winner, prizePerSupply);
      ResolvedValid(s, r.value.state, eventId, winner, prizePerSupply);
    }
  }

  /** The effect of `resolve_event` keeps `Valid`. */
  lemma ResolvedValid(s: State, s': State, eventId: EventId, winner: OutcomeId, prizePerSupply: Balance)
    requires Valid(s) && eventId in s.markets
    requires Resolved(s, s', eventId, winner, prizePerSupply)
    ensures Valid(s')
  {
    ResolvedFundsKeepIds(s, s', winner, prizePerSupply);
    OutcomesUntouchedValid(s, s');
  }

  /** Crediting the listed funds keeps every fund under its own id. */
  lemma ResolvedFundsKeepIds(s: State, s': State, winner: OutcomeId, prizePerSupply: Balance)
    requires FundKeysMatch(s) && PaidOut(s, s'.funds, winner, prizePerSupply)
    ensures FundKeysMatch(s')
  {
  }

  lemma CreateFundKeepsValid(s: State, env: Env, totalShare: Share, metadata: FundMetadata)
    requires Valid(s)
    ensures var r := CreateFund(s, env, totalShare, metadata);
      r.Ok? ==> Valid(r.value.state)
  {
    var r := CreateFund(s, env, totalShare, metadata);
    if r.Ok? {
      OutcomesUntouchedValid(s, r.value.state);
    }
  }

  lemma TransferShareKeepsValid(s: State, env: Env, fundId: FundId, recipient: AccountId, amount: Share)
    requires Valid(s)
    ensures var r := TransferShare(s, env, fundId, recipient, amount);
      r.Ok? ==> Valid(r.value.state)
  {
    var r := TransferShare(s, env, fundId, recipient, amount);
    if r.Ok? {
      HandedOverKeepsIds(s, r.value.state, fundId, env.caller, recipient, amount);
      OutcomesUntouchedValid(s, r.value.state);
    }
  }

  /** A share hand-over keeps every fund under its own id. */
  lemma HandedOverKeepsIds(s: State, s': State, f: FundId, giver: AccountId, taker: AccountId, amount: Share)
    requires f in s.funds && FundKeysMatch(s)
    requires HandedOver(s, s'.shares, s'.funds, f, giver, taker, amount)
    ensures FundKeysMatch(s')
  {
  }

  lemma BetKeepsValid(s: State, env: Env, outcomeId: OutcomeId, fundId: FundId, supplies: Supply)
    requires Valid(s)
    ensures var r := Bet(s, env, outcomeId, fundId, supplies);
      r.Ok? ==> Valid(r.value.state)
  {
    var r := Bet(s, env, outcomeId, fundId, supplies);
    if r.Ok? {
      PlacedBetValid(s, r.value.state, env.value, outcomeId, fundId, supplies);
    }
  }

  /** The effect of `bet` keeps `Valid`. */
  lemma PlacedBetValid(s: State, s': State, value: Balance, outcomeId: OutcomeId, fundId: FundId, supplies: Supply)
    requires Valid(s)
    requires fundId in s.funds && outcomeId in s.outcomes && outcomeId in s.marketOutcomes
    requires s.outcomes[outcomeId].eventId in s.markets && supplies > 0
    requires BetPlaced(s, s', value, outcomeId, fundId, supplies)
    ensures Valid(s')
  {
    assert FundKeysMatch(s') && TablesPaired(s') && OutcomeIdsIssued(s') && EventListsKnown(s');
    assert WithinSupply(s');
    PlacedBetListings(s, s', outcomeId, fundId, supplies);
  }

  lemma PlacedBetListings(s: State, s': State, outcomeId: OutcomeId, fundId: FundId, supplies: Supply)
    requires ListingsKnown(s)
    requires fundId in s.funds && outcomeId in s.outcomes && supplies > 0
    requires s'.outcomes == s.outcomes && s'.funds.Keys == s.funds.Keys
    requires UpdatedOnlyAt(s.tickets, s'.tickets, (outcomeId, fundId)) && TicketOf(s'.tickets, outcomeId, fundId) == supplies
    requires UpdatedOnlyAt(s.outcomeToFunds, s'.outcomeToFunds, outcomeId)
    requires IndexOf(s'.outcomeToFunds, outcomeId) == IndexOf(s.outcomeToFunds, outcomeId) + [fundId]
    ensures ListingsKnown(s')
  {
    forall o, f | o in s'.outcomeToFunds && f in s'.outcomeToFunds[o]
      ensures f in s'.funds && TicketOf(s'.tickets, o, f) > 0
    {
      if (o, f) != (outcomeId, fundId) {
        assert TicketOf(s'.tickets, o, f) == TicketOf(s.tickets, o, f);
        if o == outcomeId {
          assert f in IndexOf(s.outcomeToFunds, outcomeId) + [fundId];
        }
      }
    }
  }

  lemma CreateProposalKeepsValid(s: State, env: Env, fundId: FundId, amount: Share, price: Balance,
                                 duration: Option<Timestamp>, proposedPerson: Option<AccountId>)
    requires Valid(s)
    ensures var r := CreateProposal(s, env, fundId, amount, price, duration, proposedPerson);
      r.Ok? ==> Valid(r.value.state)
  {
    var r := CreateProposal(s, env, fundId, amount, price, duration, proposedPerson);
    if r.Ok? {
      OutcomesUntouchedValid(s, r.value.state);
    }
  }

  lemma AcceptProposalKeepsValid(s: State, env: Env, tradeId: TradeId)
    requires Valid(s)
    ensures var r := AcceptProposal(s, env, tradeId);
      r.Ok? ==> Valid(r.value.state)
  {
    var r := AcceptProposal(s, env, tradeId);
    if r.Ok? {
      var t := s.trades[tradeId];
      HandedOverKeepsIds(s, r.value.state, t.fundId, t.proponent, env.caller, t.share);
      OutcomesUntouchedValid(s, r.value.state);
    }
  }

  /** The outcomes a new event creates start balanced: nothing sold,
      nothing listed. */
  lemma NewOutcomesBalanced(s: State, env: Env, question: string, resolveDate: Timestamp,
                            bets: seq<OutcomePayload>, metadata: EventMetadata)
    requires Valid(s)
    requires CreateEvent(s, env, question, resolveDate, bets, metadata).Ok?
    ensures var s' := CreateEvent(s, env, question, resolveDate, bets, metadata).value.state;
      forall o :: s.nextOutcomeId <= o < s.nextOutcomeId + |bets| ==> SupplyBalanced(s', o)
  {
    var s' := CreateEvent(s, env, question, resolveDate, bets, metadata).value.state;
    assert OutcomesAdded(s, s'.outcomes, s'.marketOutcomes, s.nextEventId, bets);
    forall o | s.nextOutcomeId <= o < s.nextOutcomeId + |bets|
      ensures SupplyBalanced(s', o)
    {
      assert o in IdRange(s.nextOutcomeId, |bets|);
      assert o !in s.outcomeToFunds;
    }
  }

  /** The ticket table after a bet is the old one with the ticket of the
      betting fund set. */
  lemma BetTickets(s: State, env: Env, outcomeId: OutcomeId, fundId: FundId, supplies: Supply)
    requires Bet(s, env, outcomeId, fundId, supplies).Ok?
    ensures Bet(s, env, outcomeId, fundId, supplies).value.state.tickets == s.tickets[(outcomeId, fundId) := supplies]
  {
  }

  /** A bet keeps every outcome balanced, except a repeat bet of a fund
      already listed on the outcome it bets on. */
  lemma BetKeepsBalance(s: State, env: Env, outcomeId: OutcomeId, fundId: FundId, supplies: Supply, o: OutcomeId)
    requires SupplyBalanced(s, o)
    requires o != outcomeId || fundId !in IndexOf(s.outcomeToFunds, outcomeId)
    ensures var r := Bet(s, env, outcomeId, fundId, supplies);
      r.Ok? ==> SupplyBalanced(r.value.state, o)
  {
    var r := Bet(s, env, outcomeId, fundId, supplies);
    if r.Ok? {
      PlacedBetBalance(s, r.value.state, env.value, outcomeId, fundId, supplies, o);
    }
  }

  /** Storage that keeps outcome `o`, its market entry, the ticket table
      and the listings keeps `o` balanced. */
  lemma BalanceFrame(s: State, s': State, o: OutcomeId)
    requires SupplyBalanced(s, o)
    requires o in s'.outcomes && s'.outcomes[o] == s.outcomes[o]
    requires o in s'.marketOutcomes && s'.marketOutcomes[o] == s.marketOutcomes[o]
    requires s'.tickets == s.tickets && s'.outcomeToFunds == s.outcomeToFunds
    ensures SupplyBalanced(s', o)
  {
  }

  /** A new event keeps every existing outcome balanced: its outcomes take
      fresh ids, above every outcome already filed. */
  lemma CreateEventKeepsBalance(s: State, env: Env, question: string, resolveDate: Timestamp,
                                bets: seq<OutcomePayload>, metadata: EventMetadata, o: OutcomeId)
    requires Valid(s) && SupplyBalanced(s, o)
    ensures var r := CreateEvent(s, env, question, resolveDate, bets, metadata);
      r.Ok? ==> SupplyBalanced(r.value.state, o)
  {
    var r := CreateEvent(s, env, question, resolveDate, bets, metadata);
    if r.Ok? {
      var s' := r.value.state;
      assert OutcomesAdded(s, s'.outcomes, s'.marketOutcomes, s.nextEventId, bets);
      assert o !in IdRange(s.nextOutcomeId, |bets|);
      BalanceFrame(s, s', o);
    }
  }

  /** Resolving an event moves funds and the pool only: every outcome
      stays as balanced as it was. */
  lemma ResolveEventKeepsBalance(s: State, env: Env, eventId: EventId, winner: OutcomeId, o: OutcomeId)
    requires SupplyBalanced(s, o)
    ensures var r := ResolveEvent(s, env, eventId, winner);
      r.Ok? ==> SupplyBalanced(r.value.state, o)
  {
    var r := ResolveEvent(s, env, eventId, winner);
    if r.Ok? {
      assert eventId in s.markets && Resolved(s, r.value.state, eventId, winner, PrizePerSupply(s.markets[eventId].pool, UsedSupply(s, winner)));
      BalanceFrame(s, r.value.state, o);
    }
  }

  lemma CreateFundKeepsBalance(s: State, env: Env, totalShare: Share, metadata: FundMetadata, o: OutcomeId)
    requires SupplyBalanced(s, o)
    ensures var r := CreateFund(s, env, totalShare, metadata);
      r.Ok? ==> SupplyBalanced(r.value.state, o)
  {
    var r := CreateFund(s, env, totalShare, metadata);
    if r.Ok? { BalanceFrame(s, r.value.state, o); }
  }

  lemma TransferShareKeepsBalance(s: State, env: Env, fundId: FundId, recipient: AccountId, amount: Share, o: OutcomeId)
    requires SupplyBalanced(s, o)
    ensures var r := TransferShare(s, env, fundId, recipient, amount);
      r.Ok? ==> SupplyBalanced(r.value.state, o)
  {
    var r := TransferShare(s, env, fundId, recipient, amount);
    if r.Ok? { BalanceFrame(s, r.value.state, o); }
  }

  lemma CreateProposalKeepsBalance(s: State, env: Env, fundId: FundId, amount: Share, price: Balance,
                                   duration: Option<Timestamp>, proposedPerson: Option<AccountId>, o: OutcomeId)
    requires SupplyBalanced(s, o)
    ensures var r := CreateProposal(s, env, fundId, amount, price, duration, proposedPerson);
      r.Ok? ==> SupplyBalanced(r.value.state, o)
  {
    var r := CreateProposal(s, env, fundId, amount, price, duration, proposedPerson);
    if r.Ok? { BalanceFrame(s, r.value.state, o); }
  }

  lemma AcceptProposalKeepsBalance(s: State, env: Env, tradeId: TradeId, o: OutcomeId)
    requires SupplyBalanced(s, o)
    ensures var r := AcceptProposal(s, env, tradeId);
      r.Ok? ==> SupplyBalanced(r.value.state, o)
  {
    var r := AcceptProposal(s, env, tradeId);
    if r.Ok? { BalanceFrame(s, r.value.state, o); }
  }

  lemma PlacedBetBalance(s: State, s': State, value: Balance, outcomeId: OutcomeId, fundId: FundId, supplies: Supply, o: OutcomeId)
    requires fundId in s.funds && outcomeId in s.outcomes && outcomeId in s.marketOutcomes
    requires s.outcomes[outcomeId].eventId in s.markets
    requires BetPlaced(s, s', value, outcomeId, fundId, supplies)
    requires SupplyBalanced(s, o)
    requires o != outcomeId || fundId !in IndexOf(s.outcomeToFunds, outcomeId)
    ensures SupplyBalanced(s', o)
  {
    var ids := IndexOf(s.outcomeToFunds, o);
    TicketWritten(s.tickets, s'.tickets, (outcomeId, fundId), supplies);
    if o != outcomeId {
      TicketSumOtherOutcome(s.tickets, outcomeId, fundId, supplies, o, ids);
      assert IndexOf(s'.outcomeToFunds, o) == ids;
      assert UsedSupply(s', o) == UsedSupply(s, o);
    } else {
      CountPositive(ids, fundId);
      TicketSumOverwrite(s.tickets, o, ids, fundId, supplies);
      TicketSumAppend(s'.tickets, o, ids, fundId);
    }
  }

  /** A ticket table that changed only at `k`, where it now reads `n`,
      is the old one with `k` set to `n`. */
  lemma TicketWritten(tickets: map<(OutcomeId, FundId), Supply>, tickets': map<(OutcomeId, FundId), Supply>,
                      k: (OutcomeId, FundId), n: Supply)
    requires UpdatedOnlyAt(tickets, tickets', k) && TicketOf(tickets', k.0, k.1) == n
    ensures tickets' == tickets[k := n]
  {
  }

  /** A repeat bet rewrites the fund's ticket rather than adding to it,
      while the outcome's sold supply grows by the new amount: the balance
      survives exactly when the new amount equals the old ticket. */
  lemma RepeatBetBalancedIff(s: State, env: Env, outcomeId: OutcomeId, fundId: FundId, supplies: Supply)
    requires Bet(s, env, outcomeId, fundId, supplies).Ok?
    requires SupplyBalanced(s, outcomeId)
    requires fundId in IndexOf(s.outcomeToFunds, outcomeId)
    ensures SupplyBalanced(Bet(s, env, outcomeId, fundId, supplies).value.state, outcomeId)
            <==> supplies == TicketOf(s.tickets, outcomeId, fundId)
  {
    var s' := Bet(s, env, outcomeId, fundId, supplies).value.state;
    var ids := IndexOf(s.outcomeToFunds, outcomeId);
    BetTickets(s, env, outcomeId, fundId, supplies);
    CountPositive(ids, fundId);
    TicketSumOverwrite(s.tickets, outcomeId, ids, fundId, supplies);
    TicketSumAppend(s'.tickets, outcomeId, ids, fundId);
    assert IndexOf(s'.outcomeToFunds, outcomeId) == ids + [fundId];
    assert UsedSupply(s', outcomeId) == UsedSupply(s, outcomeId) + supplies;
    OverwriteArithmetic(TicketSum(s'.tickets, outcomeId, ids), TicketSum(s.tickets, outcomeId, ids),
                        Count(ids, fundId), TicketOf(s.tickets, outcomeId, fundId), supplies);
  }

  /** The sums behind a repeat bet: with `c >= 1` listings, a rewritten sum
      `rest` plus the new ticket matches the old sum plus the new ticket
      exactly when the ticket did not change. */
  lemma OverwriteArithmetic(rest: nat, sum: nat, c: nat, old_: nat, n: nat)
    requires c > 0 && rest + c * old_ == sum + c * n
    ensures rest + n == sum + n <==> old_ == n
  {
    if old_ != n {
      var lo, hi := if old_ < n then old_ else n, if old_ < n then n else old_;
      var d := hi - lo;
      assert c * hi == c * lo + c * d;
      assert c * d >= d > 0;
    }
  }

  /** Once its market is resolved, an event takes no more bets: a bet on
      one of its outcomes is refused, and when the fund, the caller and
      the outcome pass the first checks it is refused for the date. */
  lemma ResolvedEventTakesNoBets(s: State, env: Env, eventId: EventId, winner: OutcomeId,
                                 env2: Env, outcomeId: OutcomeId, fundId: FundId, supplies: Supply)
    requires ResolveEvent(s, env, eventId, winner).Ok?
    requires outcomeId in s.outcomes && s.outcomes[outcomeId].eventId == eventId
    ensures !Bet(ResolveEvent(s, env, eventId, winner).value.state, env2, outcomeId, fundId, supplies).Ok?
    ensures var s' := ResolveEvent(s, env, eventId, winner).value.state;
      BetTarget(s', env2, outcomeId, fundId) ==> Bet(s', env2, outcomeId, fundId, supplies) == Err(ResolveDateNotMatch)
  {
    var s' := ResolveEvent(s, env, eventId, winner).value.state;
    assert s'.outcomes == s.outcomes && s'.marketOutcomes == s.marketOutcomes;
    assert s'.eventToOutcomes == s.eventToOutcomes && s'.events == s.events;
    assert eventId in s'.markets && s'.markets[eventId].isResolved;
    assert EventOutcomesKnown(s', eventId);
  }

  /** In reachable storage, resolving a balanced winning outcome that
      passes the owner, date and outcome checks and has sold supply always
      succeeds, and leaves only the floor-division remainder in the pool. */
  lemma BalancedResolveSucceeds(s: State, env: Env, eventId: EventId, winner: OutcomeId)
    requires Valid(s) && SupplyBalanced(s, winner)
    requires eventId in s.events && env.caller == s.events[eventId].owner
    requires s.markets[eventId].resolveDate <= env.now && !s.markets[eventId].isResolved
    requires s.outcomes[winner].eventId == eventId && UsedSupply(s, winner) > 0
    ensures var r := ResolveEvent(s, env, eventId, winner);
      && r.Ok?
      && r.value.state.markets[eventId].pool == s.markets[eventId].pool % UsedSupply(s, winner)
  {
    assert forall o :: o in IndexOf(s.eventToOutcomes, eventId) ==> o in s.outcomes && o in s.marketOutcomes;
    ResolveLeavesRemainder(s, env, eventId, winner);
  }
}

=== FILE: settlement.dfy ===
/** The payout loop of `resolve_event`: every fund listed on the winning
    outcome is paid `ticket * prize_per_supply` out of the market pool. The
    fund records are read once, before the loop, and written back after
    it, each under its own identifier. */
module Settlement {
  import opened Types
  import opened Store

  /** A fund record after `amount` is credited to its balance. */
  function Credit(fund: InvestmentFund, amount: Balance): (r: InvestmentFund)
    ensures r.totalFund == fund.totalFund + amount
    ensures r.(totalFund := fund.totalFund) == fund
  {
    fund.(totalFund := fund.totalFund + amount)
  }

  /** What the loop leaves behind: the pool and the credited fund records,
      one per listing. */
  datatype Payout = Payout(pool: Balance, paid: seq<InvestmentFund>)

  /** The loop over the holdings, front to back. A zero ticket aborts with
      `SomethingWrong`; a prize larger than what is left of the pool is an
      unsigned underflow, i.e. a panic. */
  function PayFunds(hs: seq<FundHolding>, prizePerSupply: Balance, pool: Balance): (r: Result<Payout>)
    ensures r.Ok? <==>
      && (forall i :: 0 <= i < |hs| ==> hs[i].supply > 0)
      && HeldSupply(hs) * prizePerSupply <= pool
    ensures r.Err? ==> r.error == SomethingWrong
    ensures HeldSupply(hs) * prizePerSupply <= pool && (exists i :: 0 <= i < |hs| && hs[i].supply == 0)
            ==> r == Err(SomethingWrong)
    ensures (forall i :: 0 <= i < |hs| ==> hs[i].supply > 0) && HeldSupply(hs) * prizePerSupply > pool
            ==> r.Trap?
    ensures r.Ok? ==> r.value.pool + HeldSupply(hs) * prizePerSupply == pool
    ensures r.Ok? ==> |r.value.paid| == |hs|
    ensures r.Ok? ==> forall i :: 0 <= i < |hs| ==> r.value.paid[i] == Credit(hs[i].fund, hs[i].supply * prizePerSupply)
  {
    if |hs| == 0 then Ok(Payout(pool, []))
    else if hs[0].supply == 0 then Err(SomethingWrong)
    else
      var prize := hs[0].supply * prizePerSupply;
      assert HeldSupply(hs) * prizePerSupply == prize + HeldSupply(hs[1..]) * prizePerSupply;
      if prize > pool then Trap
      else
        var rest :- PayFunds(hs[1..], prizePerSupply, pool - prize);
        assert forall i :: 1 <= i < |hs| ==> hs[i] == hs[1..][i - 1];
        Ok(Payout(rest.pool, [Credit(hs[0].fund, prize)] + rest.paid))
  }

  /** Any two records with the same identifier are the same record. */
  ghost predicate AgreeOnIds(paid: seq<InvestmentFund>) {
    forall i, j :: 0 <= i < |paid| && 0 <= j < |paid| && paid[i].fundId == paid[j].fundId ==> paid[i] == paid[j]
  }

  /** Writes the credited records back, each under its own identifier, in
      order; a later write of the same identifier wins. */
  function Commit(funds: map<FundId, InvestmentFund>, paid: seq<InvestmentFund>): (r: map<FundId, InvestmentFund>)
    ensures funds.Keys <= r.Keys
    ensures forall i :: 0 <= i < |paid| ==> paid[i].fundId in r
    ensures (forall i :: 0 <= i < |paid| ==> paid[i].fundId in funds) ==> r.Keys == funds.Keys
    ensures forall f :: f in funds && (forall i :: 0 <= i < |paid| ==> paid[i].fundId != f) ==> r[f] == funds[f]
    ensures AgreeOnIds(paid) ==> forall i :: 0 <= i < |paid| ==> r[paid[i].fundId] == paid[i]
    decreases |paid|
  {
    if |paid| == 0 then funds
    else
      var r := Commit(funds[paid[0].fundId := paid[0]], paid[1..]);
      assert forall i :: 1 <= i < |paid| ==> paid[i] == paid[1..][i - 1];
      r
  }

  /** A fund listed twice is paid twice out of the pool, but both credited
      records start from the same snapshot, so its balance rises by one
      prize only. */
  lemma DoubleListingCreditsOnce(fund: InvestmentFund, supply: Supply, prizePerSupply: Balance, pool: Balance,
                                 funds: map<FundId, InvestmentFund>)
    requires supply > 0 && 2 * supply * prizePerSupply <= pool
    ensures var r := PayFunds([FundHolding(fund, supply), FundHolding(fund, supply)], prizePerSupply, pool);
      && r.Ok?
      && r.value.pool == pool - 2 * supply * prizePerSupply
      && Commit(funds, r.value.paid)[fund.fundId].totalFund == fund.totalFund + supply * prizePerSupply
  {
    var hs := [FundHolding(fund, supply), FundHolding(fund, supply)];
    assert HeldSupply(hs) == 2 * supply by {
      assert hs[1..] == [FundHolding(fund, supply)];
      assert HeldSupply(hs[1..][1..]) == 0;
      assert HeldSupply(hs[1..]) == supply;
    }
    var r := PayFunds(hs, prizePerSupply, pool);
    assert AgreeOnIds(r.value.paid);
  }
}

=== FILE: store.dfy ===
/** The contract's lookup helpers (`get_*_by_id`, `get_outcome_funds`) and
    facts about the bet-ticket sums they feed. */
module Store {
  import opened Types

  /** An event with its market and the summed total supply of its outcomes. */
  datatype EventView = EventView(event: Event, market: EventMarket, totalSupply: Supply)

  datatype OutcomeView = OutcomeView(outcome: Outcome, marketOutcome: MarketOutcome)

  /** A fund listed on an outcome, with the ticket it holds there. */
  datatype FundHolding = FundHolding(fund: InvestmentFund, supply: Supply)

  /** An unknown outcome id (or one missing its market entry) is reported
      as `WrongEventOutCome`, never read as a default record. */
  function GetOutcomeById(s: State, o: OutcomeId): (r: Result<OutcomeView>)
    ensures r.Ok? <==> o in s.outcomes && o in s.marketOutcomes
    ensures r.Ok? ==> r.value.outcome == s.outcomes[o] && r.value.marketOutcome == s.marketOutcomes[o]
    ensures !r.Ok? ==> r == Err(WrongEventOutCome)
  {
    if o in s.outcomes && o in s.marketOutcomes then Ok(OutcomeView(s.outcomes[o], s.marketOutcomes[o]))
    else Err(WrongEventOutCome)
  }

  /** Every outcome listed for event `e` exists, with its market entry. */
  predicate EventOutcomesKnown(s: State, e: EventId) {
    forall o :: o in IndexOf(s.eventToOutcomes, e) ==> o in s.outcomes && o in s.marketOutcomes
  }

  /** Total supply of the listed outcomes, summed front to back; fails if
      one is unknown. */
  function SupplyTotal(s: State, ids: seq<OutcomeId>): (r: Result<Supply>)
    ensures r.Ok? <==> forall o :: o in ids ==> o in s.outcomes && o in s.marketOutcomes
    ensures !r.Ok? ==> r == Err(WrongEventOutCome)
    ensures |ids| == 0 ==> r == Ok(0)
    ensures r.Ok? ==> forall o :: o in ids ==> s.outcomes[o].totalSupply <= r.value
  {
    if |ids| == 0 then Ok(0)
    else
      var first :- GetOutcomeById(s, ids[0]);
      var rest :- SupplyTotal(s, ids[1..]);
      assert forall o :: o in ids ==> o == ids[0] || o in ids[1..];
      Ok(first.outcome.totalSupply + rest)
  }

  /** Listing one more known outcome adds its total supply to the sum:
      together with the empty list summing to 0, the total is the sum of
      the listed outcomes' supplies. */
  lemma {:induction false} SupplyTotalAppend(s: State, ids: seq<OutcomeId>, o: OutcomeId)
    requires forall p :: p in ids ==> p in s.outcomes && p in s.marketOutcomes
    requires o in s.outcomes && o in s.marketOutcomes
    ensures SupplyTotal(s, ids + [o]) == Ok(SupplyTotal(s, ids).value + s.outcomes[o].totalSupply)
    decreases |ids|
  {
    if |ids| == 0 {
      assert ([] + [o])[1..] == [];
    } else {
      assert (ids + [o])[1..] == ids[1..] + [o];
      SupplyTotalAppend(s, ids[1..], o);
    }
  }

  /** An event exists when both its record and its market do; then every
      outcome listed for it must exist too. */
  function GetEventById(s: State, e: EventId): (r: Result<EventView>)
    ensures r.Ok? <==> e in s.events && e in s.markets && EventOutcomesKnown(s, e)
    ensures (e !in s.events || e !in s.markets) <==> r == Err(EventNotFound)
    ensures !r.Ok? ==> r.Err? && r.error in {EventNotFound, WrongEventOutCome}
    ensures r.Ok? ==> r.value.event == s.events[e] && r.value.market == s.markets[e]
    ensures r.Ok? ==> SupplyTotal(s, IndexOf(s.eventToOutcomes, e)) == Ok(r.value.totalSupply)
  {
    if e !in s.events || e !in s.markets then Err(EventNotFound)
    else
      var total :- SupplyTotal(s, IndexOf(s.eventToOutcomes, e));
      Ok(EventView(s.events[e], s.markets[e], total))
  }

  function GetFundById(s: State, f: FundId): (r: Result<InvestmentFund>)
    ensures r.Ok? <==> f in s.funds
    ensures r.Ok? ==> r.value == s.funds[f]
    ensures !r.Ok? ==> r == Err(FundNotFound)
  {
    if f in s.funds then Ok(s.funds[f]) else Err(FundNotFound)
  }

  function GetTradeById(s: State, t: TradeId): (r: Result<FundTrade>)
    ensures r.Ok? <==> t in s.trades
    ensures r.Ok? ==> r.value == s.trades[t]
    ensures !r.Ok? ==> r == Err(TradeNotFound)
  {
    if t in s.trades then Ok(s.trades[t]) else Err(TradeNotFound)
  }

  /** The funds listed on outcome `o`, in listing order and with repeats,
      each paired with its ticket. A listed fund that no longer exists is
      an `unwrap` of nothing: the contract panics. */
  function GetOutcomeFunds(s: State, o: OutcomeId): (r: Result<seq<FundHolding>>)
    ensures r.Ok? <==> forall f :: f in IndexOf(s.outcomeToFunds, o) ==> f in s.funds
    ensures !r.Ok? ==> r.Trap?
    ensures r.Ok? ==> |r.value| == |IndexOf(s.outcomeToFunds, o)|
    ensures r.Ok? ==> forall i :: 0 <= i < |r.value| ==>
      var f := IndexOf(s.outcomeToFunds, o)[i];
      r.value[i] == FundHolding(s.funds[f], TicketOf(s.tickets, o, f))
  {
    var ids := IndexOf(s.outcomeToFunds, o);
    if forall f :: f in ids ==> f in s.funds then
      Ok(seq(|ids|, i requires 0 <= i < |ids| => FundHolding(s.funds[ids[i]], TicketOf(s.tickets, o, ids[i]))))
    else Trap
  }

  /** Sum of the supplies of a list of holdings. */
  function HeldSupply(hs: seq<FundHolding>): nat {
    if |hs| == 0 then 0 else hs[0].supply + HeldSupply(hs[1..])
  }

  /** The holdings `get_outcome_funds` returns add up to the ticket sum of
      the outcome's fund list. */
  lemma {:induction false} HeldSupplyIsTicketSum(hs: seq<FundHolding>, tickets: map<(OutcomeId, FundId), Supply>, o: OutcomeId, ids: seq<FundId>)
    requires |hs| == |ids|
    requires forall i :: 0 <= i < |hs| ==> hs[i].supply == TicketOf(tickets, o, ids[i])
    ensures HeldSupply(hs) == TicketSum(tickets, o, ids)
  {
    if |hs| > 0 {
      HeldSupplyIsTicketSum(hs[1..], tickets, o, ids[1..]);
    }
  }

  /** Appending a fund to a list adds its ticket to the sum. */
  lemma {:induction false} TicketSumAppend(tickets: map<(OutcomeId, FundId), Supply>, o: OutcomeId, ids: seq<FundId>, f: FundId)
    ensures TicketSum(tickets, o, ids + [f]) == TicketSum(tickets, o, ids) + TicketOf(tickets, o, f)
  {
    if |ids| > 0 {
      assert (ids + [f])[1..] == ids[1..] + [f];
      TicketSumAppend(tickets, o, ids[1..], f);
    }
  }

  /** Rewriting the ticket of fund `f` changes the sum once per listing of
      `f`, and not at all when `f` is not listed. */
  lemma {:induction false} TicketSumOverwrite(tickets: map<(OutcomeId, FundId), Supply>, o: OutcomeId, ids: seq<FundId>, f: FundId, n: Supply)
    ensures TicketSum(tickets[(o, f) := n], o, ids) + Count(ids, f) * TicketOf(tickets, o, f)
         == TicketSum(tickets, o, ids) + Count(ids, f) * n
  {
    if |ids| > 0 {
      TicketSumOverwrite(tickets, o, ids[1..], f, n);
      var c := Count(ids[1..], f);
      if ids[0] == f {
        assert Count(ids, f) == c + 1;
        assert (c + 1) * TicketOf(tickets, o, f) == c * TicketOf(tickets, o, f) + TicketOf(tickets, o, f);
        assert (c + 1) * n == c * n + n;
      }
    }
  }

  /** `Count` is positive exactly for listed funds. */
  lemma {:induction false} CountPositive(ids: seq<FundId>, f: FundId)
    ensures Count(ids, f) > 0 <==> f in ids
  {
    if |ids| > 0 {
      CountPositive(ids[1..], f);
      assert ids == [ids[0]] + ids[1..];
    }
  }

  /** Rewriting a ticket on one outcome leaves the sums of every other
      outcome alone. */
  lemma {:induction false} TicketSumOtherOutcome(tickets: map<(OutcomeId, FundId), Supply>, o: OutcomeId, f: FundId, n: Supply,
                                                 o2: OutcomeId, ids: seq<FundId>)
    requires o2 != o
    ensures TicketSum(tickets[(o, f) := n], o2, ids) == TicketSum(tickets, o2, ids)
  {
    if |ids| > 0 {
      TicketSumOtherOutcome(tickets, o, f, n, o2, ids[1..]);
    }
  }
}

=== FILE: types.dfy ===
/** Identifiers, constants, the error taxonomy, the entity records and the
    whole contract storage of the prediction-market ledger, as values.

    Every integer of the contract (u64 identifiers, shares, supplies and
    timestamps, u128 balances) is a `nat` here: the model does not wrap. */
module Types {

  type AccountId = nat
  type EventId = nat
  type OutcomeId = nat
  type FundId = nat
  type TradeId = nat
  type Share = nat
  type Supply = nat
  type Balance = nat
  type Timestamp = nat

  /** Smallest value a caller must attach to `create_event`. */
  const MinEventDeposit: Balance := 1_000_000_000_000
  /** Smallest value a caller must attach to `create_fund`. */
  const MinFundDeposit: Balance := 1_000_000_000_000
  /** The "share unit" the fund-creation check compares against. */
  const MinFundShare: Share := 100

  /** Lifetime of a proposal created without an explicit duration. Its
      value is defined outside the modelled code, so it is left open. */
  const DefaultDuration: Timestamp

  datatype Error =
    | DepositTooLow
    | EventNotFound
    | NotOwner
    | ResolveDateNotMatch
    | WrongEventOutCome
    | NotDivisibleBy100
    | NotEnoughShare
    | OutOfSupply
    | AtLeastTwoOutcome
    | FundNotFound
    | AtLeast100Share
    | TimeExpired
    | TradeNotAvailable
    | TradeNotFound
    | SomethingWrong
    | NoBodyBetted
    | MoreThanOneSupply
    | NotEnoughBalance
    | TraderNotIdentitied

  datatype Option<+T> = None | Some(value: T)

  /** The outcome of one message. `Err` is a returned error and `Trap` a
      panic of the contract (an `unwrap` of nothing, an unsigned underflow,
      a division by zero). Neither carries a state: the chain reverts all
      storage writes of a message that fails, so the state before the call
      stands. `:-` propagates both, like Rust's `?` operator. */
  datatype Result<+T> = Ok(value: T) | Err(error: Error) | Trap {
    predicate IsFailure() {
      !Ok?
    }

    function PropagateFailure<U>(): Result<U>
      requires !Ok?
    {
      if Err? then Err(error) else Trap
    }

    function Extract(): T
      requires Ok?
    {
      value
    }
  }

  /** Opaque metadata; its contents play no part in the ledger. */
  datatype EventMetadata = EventMetadata(raw: string)
  datatype FundMetadata = FundMetadata(name: Option<string>, imageUrl: Option<string>)

  datatype Event = Event(eventId: EventId, owner: AccountId, question: string, metadata: EventMetadata)

  datatype EventMarket = EventMarket(
    eventId: EventId,
    pool: Balance,
    isResolved: bool,
    resolveDate: Timestamp,
    winningOutcome: Option<OutcomeId>)

  /** What the organizer supplies for each outcome of a new event. */
  datatype OutcomePayload = OutcomePayload(description: string, depositPerSupply: Balance, totalSupply: Supply)

  datatype Outcome = Outcome(
    eventId: EventId,
    outcomeId: OutcomeId,
    description: string,
    depositPerSupply: Balance,
    totalSupply: Supply)

  datatype MarketOutcome = MarketOutcome(eventId: EventId, outcomeId: OutcomeId, availableSupply: Supply)

  datatype InvestmentFund = InvestmentFund(
    fundId: FundId,
    trader: AccountId,
    totalFund: Balance,
    totalShare: Share,
    metadata: FundMetadata)

  datatype FundTrade = FundTrade(
    fundId: FundId,
    tradeId: TradeId,
    proponent: AccountId,
    proposedPerson: Option<AccountId>,
    share: Share,
    price: Balance,
    closeTime: Timestamp,
    isCompleted: bool)

  /** The contract's storage: one map per entity table, the secondary
      indexes, and the four identifier counters. */
  datatype State = State(
    events: map<EventId, Event>,
    markets: map<EventId, EventMarket>,
    outcomes: map<OutcomeId, Outcome>,
    marketOutcomes: map<OutcomeId, MarketOutcome>,
    funds: map<FundId, InvestmentFund>,
    trades: map<TradeId, FundTrade>,
    eventToOutcomes: map<EventId, seq<OutcomeId>>,
    tickets: map<(OutcomeId, FundId), Supply>,
    outcomeToFunds: map<OutcomeId, seq<FundId>>,
    fundToOutcomes: map<FundId, seq<OutcomeId>>,
    shares: map<(FundId, AccountId), Share>,
    fundToTrades: map<FundId, seq<TradeId>>,
    proponentToTrades: map<AccountId, seq<TradeId>>,
    nextFundId: FundId,
    nextEventId: EventId,
    nextOutcomeId: OutcomeId,
    nextTradeId: TradeId)

  /** What the execution environment supplies to a message: the caller,
      the value transferred with the call and the block timestamp. */
  datatype Env = Env(caller: AccountId, value: Balance, now: Timestamp)

  /** A successful message: the state it commits and what it returns. */
  datatype Step<+T> = Step(state: State, output: T)

  /** The storage of a freshly deployed contract. */
  function Initial(): State {
    State(map[], map[], map[], map[], map[], map[], map[], map[], map[], map[], map[], map[], map[], 0, 0, 0, 0)
  }

  /** A share entry, reading a missing entry as zero. */
  function ShareOf(s: State, f: FundId, a: AccountId): Share {
    if (f, a) in s.shares then s.shares[(f, a)] else 0
  }

  /** A bet ticket, reading a missing entry as zero. */
  function TicketOf(tickets: map<(OutcomeId, FundId), Supply>, o: OutcomeId, f: FundId): Supply {
    if (o, f) in tickets then tickets[(o, f)] else 0
  }

  /** An index list, reading a missing entry as the empty list. */
  function IndexOf<K, V>(index: map<K, seq<V>>, k: K): seq<V> {
    if k in index then index[k] else []
  }

  /** `m'` agrees with `m` on every key but `k`, and holds `k`. */
  ghost predicate UpdatedOnlyAt<K, V>(m: map<K, V>, m': map<K, V>, k: K) {
    && m'.Keys == m.Keys + {k}
    && forall j :: j in m && j != k ==> m'[j] == m[j]
  }

  /** Every stored fund is filed under its own identifier. */
  ghost predicate FundKeysMatch(s: State) {
    forall f :: f in s.funds ==> s.funds[f].fundId == f
  }

  /** Sum of the tickets `(o, f)` over the funds listed in `ids`, counting a
      fund once per listing. */
  function TicketSum(tickets: map<(OutcomeId, FundId), Supply>, o: OutcomeId, ids: seq<FundId>): nat {
    if |ids| == 0 then 0 else TicketOf(tickets, o, ids[0]) + TicketSum(tickets, o, ids[1..])
  }

  /** Number of times `f` is listed in `ids`. */
  function Count(ids: seq<FundId>, f: FundId): nat {
    if |ids| == 0 then 0 else (if ids[0] == f then 1 else 0) + Count(ids[1..], f)
  }
}
